=== FILE: README.md ===
# Personal tracker: completion logging, streaks and read-side views

This project models the core of a habit tracker with a FastAPI backend and a React client. A user owns tasks. Once a day they log each task as done or not done. A completed task advances a stored per-task streak counter. Reaching a streak of 3, 7 or 30 earns a "streak_bonus" reward. Read-only views are computed from the same tables:

- the task list with each task's streak and today's status;
- the dashboard counters;
- the training rows of the completion predictor;
- the client's grouping of tasks by category, its leaderboard rank label, and the guards of its "done" toggle and create form.

The database is one immutable `Store` value (`Models.Store`) holding the task, daily-log, streak and reward tables as sequences. Each route that writes is a pure function from the store, the caller's user id and the request to a `Reply`: the store afterwards plus either the response or an `HttpError` with the route's status code and detail text. When such a route fails, the returned store is the one it was given. That is the model of the session rollback. The read-only routes (`TasksRoute.GetTasks`, `DashboardRoute.GetDashboard`) cannot fail for a known caller and return their response body directly.

Calendar days are integers (Python's proleptic Gregorian ordinals). `date.today()` and `datetime.utcnow()` become the parameters `today` and `createdOn`.

Modules follow the source files:

| module | source |
|---|---|
| `DateUtils` | `app/utils/date_utils.py`, plus `date.weekday()` |
| `Categories`, `Models` | `app/models/task.py`, `daily_log.py`, `streak.py`, `reward.py` |
| `StreakService` | `app/services/streak_service.py` |
| `RewardService` | `app/services/reward_service.py` |
| `LogsRoute`, `LogsProperties`, `StreakRuns` | `app/api/routes/logs.py` |
| `TasksRoute` | `app/api/routes/tasks.py` |
| `DashboardRoute` | `app/api/routes/dashboard.py` |
| `Predictor` | `app/ml/predictor.py` |
| `AppView` | `frontend/src/App.jsx` |
| `Config` | `app/core/config.py` |

`Wrappers`, `Seqs` and `Text` are generic helpers. `Seqs` provides filtering, first index and maximum. `Text` provides prefixes, first-occurrence replace, trimming, CPython's `int()` on ASCII digits (with its white-space rule and its 4300-digit limit) and decimal rendering.

The store invariant `Models.Valid` holds:

- unique task ids;
- the `(title, user_id)` constraint;
- the `(task_id, log_date)` constraint;
- foreign keys from logs, streaks and rewards to tasks;
- at most one streak row per task;
- `1 <= current_streak <= longest_streak` for every streak row;
- every streak's last completed day is backed by a completed log.

The empty store is valid, and every route preserves `Valid`.

Three behaviours of the code are worth stating plainly:

- Streaks are stored counters, changed only by a completion. They are not recomputed on read, and no grace period applies: `TasksRoute.ListedStreakIgnoresToday` states that the listed streak does not depend on the day.
- `active_streaks` counts streak rows, whatever their value.
- A reward row is issued only at the streak counts 3, 7 and 30.

## Model

| member | source | states |
|---|---|---|
| DateUtils.IsConsecutiveDay | app/utils/date_utils.py:3-4 | the current day is the day after the last one, on day ordinals |
| DateUtils.ConsecutiveExactlyOneApart | app/utils/date_utils.py:3-4 | the successor test holds exactly when the current day is one day after the last |
| DateUtils.ConsecutiveIrreflexive | app/utils/date_utils.py:4 | a day is never consecutive to itself |
| DateUtils.ConsecutiveAsymmetric | app/utils/date_utils.py:4 | if b follows a, then a does not follow b |
| DateUtils.ConsecutiveRejectsGaps | app/utils/date_utils.py:4 | a gap of two or more days, or a day not after the last, is not consecutive |
| DateUtils.Weekday | app/ml/predictor.py:58 | the weekday is in 0..6 |
| DateUtils.WeekdaySuccessor | app/ml/predictor.py:58 | day 1 is a Monday (0); weekdays repeat every 7 days and advance by one, wrapping from Sunday to Monday |
| Categories.FromLabel | app/models/task.py:7-12 | the category found for a string has exactly that label; no string outside the five labels names a category |
| Categories.LabelRoundTrip | app/models/task.py:7-12 | reading back a category's label gives the same category |
| Categories.AllCategoriesComplete | frontend/src/App.jsx:7-13 | the client's list holds all five categories, once each, with "Others" last, at index 4 |
| Models.TaskWithDefaults | app/models/task.py:19-26 | a new task row has category "Others", is active, and has no description, owner or schedule |
| Models.CategoryOrOthers | app/api/routes/tasks.py:58 | a missing or empty category reads as "Others"; any other stored text is kept as is |
| Models.Valid | app/models/task.py:15-17 | the store invariant: unique task ids, no two tasks of one owner with the same title (`uix_task_user_title`), one log per task and day, logs, streaks and rewards refer to existing tasks, one streak row per task, each within its bounds and backed by a completed log |
| Models.UniqueLogKeys | app/models/daily_log.py:7-9 | no two logs share a task and a day (`uix_task_day`) |
| Models.FindLogUnique | app/models/daily_log.py:7-9 | with unique (task, day) keys, the log found for a task and day exists exactly when some log has that key, and is the only such log |
| StreakService.Advance | app/services/streak_service.py:14-21 | the next day after the last completion adds one to the current streak; any other day resets it to 1; the longest streak never drops and covers the current one; the last completed day becomes today |
| StreakService.UpdateStreak | app/services/streak_service.py:6-24 | without a row, one row (1, 1, today) is appended; otherwise the first row of the task in the model's table order is advanced in place; afterwards the task's row is the returned streak |
| StreakService.UpdateNeverLowersLongest | app/services/streak_service.py:14-21 | every existing row keeps its position and task, and its longest_streak never decreases |
| StreakService.UpdatedRowCountsToday | app/services/streak_service.py:11-21 | with non-negative counters, the row a completion leaves behind has a longest streak of at least 1 |
| StreakService.FirstCompletionStartsAtOne | app/services/streak_service.py:11-13 | a task's first completion creates a row with current and longest streak 1, last completed today, and grows the table by one row |
| StreakService.ConsecutiveDayExtends | app/services/streak_service.py:15-16 | a completion on the day after the last one raises the current streak by exactly one |
| StreakService.OtherDaysReset | app/services/streak_service.py:17-18 | a completion on any other day (the same day, after a gap, before the last day) resets the current streak to 1 |
| StreakService.UpdateKeepsBounds | app/services/streak_service.py:12-21 | after an update every row has 1 <= current <= longest and a last completed day; longest never decreases |
| StreakService.UpdateTouchesOnlyItsTask | app/services/streak_service.py:7-9 | rows of other tasks keep their positions and values; a new row belongs to the task; at most one row per task is kept |
| RewardService.IssueReward | app/services/reward_service.py:4-15 | a reward is issued iff the count is 3, 7 or 30; it is ("streak_bonus", count) for the task and is appended as exactly one row; otherwise nothing is stored |
| LogsRoute.LogTask | app/api/routes/logs.py:19-57 | 404 without change unless the caller owns the task; 400 without change if the task has any log today; otherwise exactly one log (task, today, completed) is appended; a "not done" log returns only the log and touches no streak or reward; a completion runs the streak update then the reward rule on the new count and returns log, streak and reward |
| LogsProperties.AppendNewLogKeepsKeysUnique | app/models/daily_log.py:7-9 | appending a log whose (task, day) is new keeps the keys unique |
| LogsProperties.StreaksAfterCompletion | app/api/routes/logs.py:47-53 | after a completion every streak row is in bounds, one per task, refers to a task and is backed by a completed log |
| LogsProperties.LogTaskPreservesValid | app/api/routes/logs.py:26-57 | logging keeps every integrity constraint of the store |
| LogsProperties.SecondLogRejected | app/api/routes/logs.py:34-47 | after one successful log of a task today, any further log of it today, done or not, gets 400 and writes nothing, so the streak update runs at most once per task and day |
| LogsProperties.ExistingLogProtectsStreaks | app/api/routes/logs.py:34-45 | with a log for today already stored (also a "not done" one), a request fails and leaves the whole store unchanged |
| LogsProperties.LogTaskLeavesOtherTasks | app/api/routes/logs.py:52-55 | logging one task never changes the streak rows of other tasks, keeps all existing rewards, and adds rows only for that task |
| StreakRuns.RunStep | app/services/streak_service.py:11-21 | on the first day of a run the streak becomes 1; on each following day it becomes one more than the previous day's |
| StreakRuns.RunMilestones | app/services/reward_service.py:5 | a run of n daily completions from a broken streak succeeds every day; the k-th day reports streak k; a reward comes exactly on days 3, 7 and 30; the stored streak ends at n |
| StreakRuns.NoCompletionYesterdayBreaks | app/services/streak_service.py:15-18 | in a valid store, a task without a completion yesterday cannot continue its streak today |
| StreakRuns.RunAfterGapRestarts | app/services/streak_service.py:15-18 | after a gap of at least one day, a new run starts again at 1 and earns its rewards on its own 3rd, 7th and 30th day |
| TasksRoute.TaskStatusOf | app/api/routes/tasks.py:41-62 | an entry copies id, title and description; the category defaults to "Others"; the streak counters are the stored row's or 0 without a row; "completed today" requires a completed log today |
| TasksRoute.GetTasks | app/api/routes/tasks.py:30-64 | one entry per active task of the caller, in the model's table order (see Left out) |
| TasksRoute.GetTasksListsActiveOwned | app/api/routes/tasks.py:36-38 | a task is listed iff it is active and owned by the caller |
| TasksRoute.CompletedTodayIff | app/api/routes/tasks.py:48-52 | "completed today" holds iff a log of the task for today records a completion; a "not done" log reads as not completed |
| TasksRoute.ListedStreakIgnoresToday | app/api/routes/tasks.py:43-45 | the listed streak counters are the stored ones, the same on every day of request |
| TasksRoute.TitleOnly | app/api/routes/tasks.py:66-69 | a request with only a title has no description and category "Others" |
| TasksRoute.NextTaskId | app/models/task.py:19 | the id given to a new task is larger than every id in use |
| TasksRoute.CreateTask | app/api/routes/tasks.py:71-86 | a title the caller already uses gives 400 and stores nothing; otherwise one task is appended, owned by the caller, active, with the request's fields and a fresh id |
| TasksRoute.CreateTaskPreservesValid | app/models/task.py:15-17 | creating a task keeps every integrity constraint, in particular one title per user |
| TasksRoute.Patch | app/api/routes/tasks.py:106-111 | only title, category and description can change, each only when given as a non-empty string |
| TasksRoute.UpdateTask | app/api/routes/tasks.py:92-121 | 404 without change unless the caller owns the task; a clash of the new title with another of the caller's tasks gives 400 without change; otherwise the patched task replaces the old one in place |
| TasksRoute.UpdateTouchesOnlyEditableFields | app/api/routes/tasks.py:106-111 | an update never changes any task's id, owner, active flag, creation day or schedule, nor any log, streak or reward |
| TasksRoute.RenameToTakenTitleRefused | app/api/routes/tasks.py:113-119 | renaming a task to the title of another of the caller's tasks is refused with 400 and changes nothing |
| TasksRoute.UpdateTaskPreservesValid | app/api/routes/tasks.py:113-121 | a successful update keeps every integrity constraint of the store |
| TasksRoute.UpdateAcceptsAnyCategory | app/models/task.py:22 | the category column is free text: an update may store "Chores", and the task list then shows a label outside the five |
| DashboardRoute.GetDashboard | app/api/routes/dashboard.py:16-63 | total and active count the caller's tasks, active <= total; completed_today counts the caller's completed logs for today; active_streaks and total_rewards count rows on the caller's tasks; longest_streak is 0 without rows, bounds every row, and is reached by one of them |
| DashboardRoute.SameDayLogsHaveDistinctTasks | app/models/daily_log.py:7-9 | logs all dated the same day with unique keys name pairwise distinct tasks |
| DashboardRoute.CompletedTodayAtMostTotal | app/api/routes/dashboard.py:29-35 | in a valid store, completed_today never exceeds the caller's total tasks |
| DashboardRoute.DashboardIgnoresOtherUsers | app/api/routes/dashboard.py:23-43 | deleting every other user's tasks and rows leaves every counter unchanged |
| DashboardRoute.LongestRow | app/api/routes/dashboard.py:45-48 | when the caller has streak rows, one of them holds the reported longest streak |
| DashboardRoute.LongestAfterCompletion | app/api/routes/dashboard.py:45-48 | when every stored row has non-negative current and longest counters, a completion never lowers the caller's longest streak, and the result is at least the updated row's longest streak |
| DashboardRoute.CompletionMovesCounters | app/api/routes/dashboard.py:29-43 | a logged completion adds one to completed_today, one to active_streaks exactly when it created the task's streak row, one to total_rewards exactly when it earned a reward, never lowers the longest streak, and leaves the task counts as they were |
| DashboardRoute.NotDoneLogMovesNothing | app/api/routes/dashboard.py:29-35 | a "not done" log changes no counter |
| Predictor.HistoryDays | app/ml/predictor.py:39-43 | the sampled days are exactly today-30 .. today-1 that are not before the creation day, newest first |
| Predictor.HistoryDaysCount | app/ml/predictor.py:39-43 | the number of sampled days is the size of that window, and no day is today or later |
| Predictor.LogMapGet | app/ml/predictor.py:31-45 | the last log with the task and day decides: the result is that log's completed flag; with no such log it is false; true only if some such log records a completion |
| Predictor.LogMapGetIff | app/ml/predictor.py:45 | with unique log keys, the lookup is true exactly when a log for the task and day records a completion |
| Predictor.ScheduledMinutes | app/ml/predictor.py:48-53 | the minutes are the int() value of scheduled_time when it parses, and 0 when it is missing or does not parse |
| Predictor.ClockTimeGivesZero | app/models/task.py:26 | a schedule containing a colon, as in the documented "HH:MM" or "HH:MM AM/PM" forms, contributes 0 minutes |
| Predictor.MinutesRoundTrip | app/ml/predictor.py:49-53 | a schedule written as a plain number of minutes reads back as that number when it has at most 4300 digits, and contributes 0 when it has more |
| Text.ParseShowNegative | app/ml/predictor.py:51 | int() reads a minus sign before the digits of n as -n, within the 4300-digit limit |
| Text.NoBreakSpaceIsIntSpace | app/ml/predictor.py:49-53 | a leading no-break space (U+00A0) is skipped by int(), so the number after it is read |
| Text.SeparatorIsNotIntSpace | app/ml/predictor.py:49-53 | a leading U+001C, which str.isspace accepts, is not skipped by int(), so such a schedule does not parse |
| Predictor.MakeRow | app/ml/predictor.py:55-62 | the category defaults to "Others"; title_length is the title's length; day_of_week is the weekday; is_weekend is 1 iff the weekday is at least 5; target is 1 iff the log map says done |
| Predictor.TaskRows | app/ml/predictor.py:36-62 | a task's rows are one row per sampled day, in order |
| Predictor.TaskRowsCount | app/ml/predictor.py:36-43 | a task has min(30, today - created) rows, and none when created today or later |
| Predictor.TrainingData | app/ml/predictor.py:20-64 | a row is in the training set exactly when it is the row of some task on some day of that task's history window |
| Predictor.TrainingDataCount | app/ml/predictor.py:36-62 | the training set has exactly one row per task and history day: the sum over the tasks of min(30, today - created), 0 for a task created today or later |
| Predictor.TotalRowsCoversEach | app/ml/predictor.py:36-43 | every task's own rows are part of the total |
| Predictor.TrainingDataSize | app/ml/predictor.py:20-64 | the training set has at most 30 rows per task |
| Predictor.TrainPredictor | app/ml/predictor.py:72-73 | training is refused iff there are fewer than 10 rows; otherwise it reports the row count |
| Predictor.OldTaskTrains | app/ml/predictor.py:66-73 | one task created ten or more days before today makes the trainer accept the training set |
| Predictor.TenRowsAccepted | app/ml/predictor.py:72-73 | exactly 10 rows are accepted, although the message asks for more than 10 |
| AppView.GroupedTasks | frontend/src/App.jsx:110-114 | five groups, one per category in list order, each holding the tasks with exactly that category, in list order |
| AppView.GroupMembership | frontend/src/App.jsx:111-114 | a task is in a group iff its category is that group's label, so a category outside the five is in no group |
| AppView.LabelledTaskBlocksRawList | frontend/src/App.jsx:320 | a task with one of the five labels hides the raw fallback list |
| AppView.UnlabelledTasksLeaveGroupsEmpty | frontend/src/App.jsx:320 | when no task has one of the five labels, every group is empty |
| AppView.ShowsRawList | frontend/src/App.jsx:320 | the fallback list is shown when there are tasks and every category group is empty |
| AppView.RawListIff | frontend/src/App.jsx:320 | the raw list is shown iff there are tasks and none has one of the five labels |
| AppView.ServerListWithDefaultsIsGrouped | app/api/routes/tasks.py:58 | a task the server lists with the default "Others" is in the last group and blocks the raw list |
| AppView.RankLabel | frontend/src/App.jsx:253-261 | index 0, 1, 2 gets gold, silver, bronze; any later index gets the decimal digits of index + 1 |
| AppView.RankLabelReadsAsPosition | frontend/src/App.jsx:261 | a label past the podium is a decimal numeral without leading zeros whose value is the 1-based position |
| AppView.RankLabelsDistinct | frontend/src/App.jsx:254-261 | different rows get different labels |
| AppView.ToggleRequest | frontend/src/App.jsx:64-76 | no request iff the first task with that id is already completed today; otherwise a completion for that id is posted |
| AppView.ToggleRefusedOnlyAfterNotDone | frontend/src/App.jsx:65-71 | for a listed task, the server refuses a toggle the client sends iff a "not done" log for today exists |
| AppView.CreateRequest | frontend/src/App.jsx:78-83 | when posted, the request carries the untrimmed title and the chosen category, without a description |
| AppView.CreateSkippedIffBlank | frontend/src/App.jsx:80 | create is skipped iff every character of the title is JavaScript white space |
| AppView.AfterCreate | frontend/src/App.jsx:84-85 | after success the form is back to an empty title and category "Others"; after a failure it is kept |
| Config.RewriteScheme | app/core/config.py:7-8 | a URL starting with "postgres://" becomes "postgresql://" followed by the rest; any other URL is unchanged |
| Config.DatabaseUrl | app/core/config.py:6-8 | an unset variable gives "sqlite:///./execution.db"; a set one, even empty, goes through the scheme rewrite |
| Config.RewriteIdempotent | app/core/config.py:7-8 | the result no longer starts with "postgres://", so a second rewrite changes nothing |
| Config.RewriteKeepsRemainder | app/core/config.py:7-8 | a rewritten URL starts with "postgresql://" and keeps the remainder unchanged |

## Left out

- Authentication (`get_current_user`, tokens, password hashing): the caller's user id is a parameter of each route.
- Row ids of logs, streaks and rewards, and `issued_at`: no behaviour depends on them. A task's `created_at` is kept only as its calendar day. `NextTaskId` follows the SQLite rule of one more than the largest id, and only its freshness is used.
- Concurrency: two simultaneous `log_task` calls for the same task and day can both pass the read-then-write check, and the database constraint then rejects one. Requests are modelled one at a time, and the constraint is part of `Models.Valid`.
- The 500 branch of `create_task` (any other exception) is not modelled, because no input of the model raises one. The `(title, user_id)` constraint of SQL treats a missing owner as distinct, so only owned tasks can clash.
- The classifier: `predict_task_success`, the scikit-learn pipeline, model files and accuracy scores involve floating point and disk I/O. Only the training rows and the size guard are modelled.
- Predictor.TrainingData: the set is a sequence of rows rather than a pandas DataFrame. Its contract states which rows it holds; `TrainingDataCount` states how many rows there are in total. No contract states how many times one row repeats, because a row carries no date and several days can give equal rows. In the source the tasks and logs are all rows of all users.
- Predictor.ScheduledMinutes: Python's `int()` also accepts non-ASCII decimal digits (such as Arabic-Indic digits). The model accepts ASCII digits only, with a sign, underscores between digits, and surrounding white space as CPython skips it (`Text.IsIntSpace`).
- Predictor.MinutesRoundTrip: the 4300-digit limit is CPython's default since Python 3.11 and the 2022 security releases. It can be changed with `sys.set_int_max_str_digits` or `PYTHONINTMAXSTRDIGITS`, and older interpreters have no limit. The model fixes the default.
- Row order: SQL returns rows in no promised order when a query has no ORDER BY (`get_tasks`, `.first()` in `update_streak`, `get_training_data`). The model fixes insertion order and updates rows in place. On PostgreSQL an updated task may instead move in the scan order. Under `Models.Valid` the order affects only the order of the task list and of the training rows.
- The rest of the client (React state, HTTP calls, rendering, the edit dialog and `handleUpdateTask`): the server's `UpdateTask` covers the update. The leaderboard's ordering and the analytics endpoints are served by code that is not part of this model, so only the rank label is modelled.
- Loading `.env` files: the environment lookup is the `Option<string>` parameter of `Config.DatabaseUrl`.

=== FILE: app_view.dfy ===
/** The pure helpers of the web client's main view: grouping the task list
    by category, the fallback list, the leaderboard rank label, and the
    guards of the "done" toggle and the create form. */
module AppView {
  import opened Wrappers
  import Seqs
  import Text
  import Categories
  import opened Models
  import TasksRoute
  import LogsRoute

  type TaskStatus = TasksRoute.TaskStatus

  function InCategory(name: string): TaskStatus -> bool {
    (t: TaskStatus) => t.category == name
  }

  /** `groupedTasks`: for each of the five categories, in `CATEGORIES`
      order, the tasks whose category is exactly its label, in list order. */
  function GroupedTasks(tasks: seq<TaskStatus>): (groups: seq<seq<TaskStatus>>)
    ensures |groups| == |Categories.AllCategories|
    ensures forall k :: 0 <= k < |groups| ==>
      groups[k] == Seqs.Filter(tasks, InCategory(Categories.Label(Categories.AllCategories[k])))
  {
    seq(|Categories.AllCategories|, k requires 0 <= k < |Categories.AllCategories| =>
      Seqs.Filter(tasks, InCategory(Categories.Label(Categories.AllCategories[k]))))
  }

  /** A task appears in the group of its category and in no other; a task
      whose category is not one of the five labels appears in no group. */
  lemma GroupMembership(tasks: seq<TaskStatus>, t: TaskStatus)
    requires t in tasks
    ensures var groups := GroupedTasks(tasks);
      forall k :: 0 <= k < |groups| ==>
        (t in groups[k] <==> Categories.FromLabel(t.category) == Some(Categories.AllCategories[k]))
  {
    var groups := GroupedTasks(tasks);
    forall k | 0 <= k < |groups|
      ensures t in groups[k] <==> Categories.FromLabel(t.category) == Some(Categories.AllCategories[k])
    {
      Categories.LabelRoundTrip(Categories.AllCategories[k]);
    }
  }

  /** The fallback "Listing all tasks raw" is shown when there are tasks
      and every group is empty. */
  predicate ShowsRawList(tasks: seq<TaskStatus>) {
    |tasks| > 0 && forall g :: g in GroupedTasks(tasks) ==> |g| == 0
  }

  /** A task with one of the five labels fills its group, so the fallback
      is not shown. */
  lemma LabelledTaskBlocksRawList(tasks: seq<TaskStatus>, t: TaskStatus)
    requires t in tasks && Categories.FromLabel(t.category).Some?
    ensures !ShowsRawList(tasks)
  {
    var groups := GroupedTasks(tasks);
    var k := Categories.IndexOf(Categories.FromLabel(t.category).value);
    GroupMembership(tasks, t);
    assert t in groups[k] && groups[k] in groups;
  }

  /** When no task carries one of the five labels, every group is empty. */
  lemma UnlabelledTasksLeaveGroupsEmpty(tasks: seq<TaskStatus>)
    requires forall t :: t in tasks ==> Categories.FromLabel(t.category).None?
    ensures forall g :: g in GroupedTasks(tasks) ==> |g| == 0
  {
    var groups := GroupedTasks(tasks);
    forall k | 0 <= k < |groups| ensures |groups[k]| == 0 {
      var c := Categories.AllCategories[k];
      Seqs.FilterNone(tasks, InCategory(Categories.Label(c)));
    }
  }

  /** The fallback appears exactly when the list is non-empty and no task's
      category is one of the five labels. */
  lemma RawListIff(tasks: seq<TaskStatus>)
    ensures ShowsRawList(tasks) <==>
      |tasks| > 0 && forall t :: t in tasks ==> Categories.FromLabel(t.category).None?
  {
    forall t | t in tasks && Categories.FromLabel(t.category).Some? ensures !ShowsRawList(tasks) {
      LabelledTaskBlocksRawList(tasks, t);
    }
    if forall t :: t in tasks ==> Categories.FromLabel(t.category).None? {
      UnlabelledTasksLeaveGroupsEmpty(tasks);
    }
  }

  /** Tasks listed by the server with their category unset read as "Others",
      so they land in the "Others" group and never trigger the fallback. */
  lemma ServerListWithDefaultsIsGrouped(tasks: seq<TaskStatus>, t: TaskStatus)
    requires t in tasks && t.category == Categories.OthersLabel
    ensures t in GroupedTasks(tasks)[4]
    ensures !ShowsRawList(tasks)
  {
    GroupMembership(tasks, t);
    assert GroupedTasks(tasks)[4] in GroupedTasks(tasks);
  }

  // ---------------------------------------------------------------------
  // Leaderboard rank label

  const Gold: string := "\U{1F947}"
  const Silver: string := "\U{1F948}"
  const Bronze: string := "\U{1F949}"

  /** `medal || index + 1`: a medal for the first three rows, the 1-based
      position for the others. */
  function RankLabel(index: nat): (mark: string)
    ensures index == 0 ==> mark == Gold
    ensures index == 1 ==> mark == Silver
    ensures index == 2 ==> mark == Bronze
    ensures index >= 3 ==> mark == Text.ShowNat(index + 1)
  {
    if index == 0 then Gold
    else if index == 1 then Silver
    else if index == 2 then Bronze
    else Text.ShowNat(index + 1)
  }

  /** Past the podium the label is a decimal numeral without leading zeros
      that reads back as the 1-based position. */
  lemma RankLabelReadsAsPosition(index: nat)
    requires index >= 3
    ensures var mark := RankLabel(index);
      && Text.AllDigits(mark) && Text.DigitsValue(mark) == index + 1
      && (|mark| > 1 ==> mark[0] != '0')
  {
  }

  /** Different rows get different labels. */
  lemma RankLabelsDistinct(i: nat, j: nat)
    requires i != j
    ensures RankLabel(i) != RankLabel(j)
  {
    if i >= 3 && j >= 3 {
      RankLabelReadsAsPosition(i);
      RankLabelReadsAsPosition(j);
    } else if i >= 3 || j >= 3 {
      var k := if i >= 3 then i else j;
      var mark := RankLabel(k);
      assert Text.AllDigits(mark);
      assert !Text.IsDigit(Gold[0]) && !Text.IsDigit(Silver[0]) && !Text.IsDigit(Bronze[0]);
    }
  }

  // ---------------------------------------------------------------------
  // Guards of the toggle and the create form

  /** The body the client posts to `/logs/`. */
  datatype LogRequest = LogRequest(taskId: int, completed: bool)

  function HasId(taskId: int): TaskStatus -> bool {
    (t: TaskStatus) => t.id == taskId
  }

  /** `handleToggleTask`: no request when the task (the first with this id
      in the list) is already completed today; otherwise a completion is
      posted, also for an id the list does not hold. */
  function ToggleRequest(tasks: seq<TaskStatus>, taskId: int): (req: Option<LogRequest>)
    ensures req.Some? ==> req.value == LogRequest(taskId, true)
    ensures req.None? <==>
      exists k :: 0 <= k < |tasks| && tasks[k].id == taskId && tasks[k].isCompletedToday
        && forall j :: 0 <= j < k ==> tasks[j].id != taskId
  {
    match Seqs.FirstIndex(tasks, HasId(taskId))
    case Some(k) =>
      if tasks[k].isCompletedToday then None else Some(LogRequest(taskId, true))
    case None => Some(LogRequest(taskId, true))
  }

  /** A toggle sent for a task of the server's list is only refused by the
      server when the task already has a "not done" log for today: the
      client's guard looks at `is_completed_today`, the server at any log. */
  lemma ToggleRefusedOnlyAfterNotDone(s: Store, user: int, today: int, taskId: int)
    requires Valid(s)
    requires exists t :: t in s.tasks && t.id == taskId && t.isActive && t.userId == Some(user)
    requires ToggleRequest(TasksRoute.GetTasks(s, user, today), taskId).Some?
    ensures var req := ToggleRequest(TasksRoute.GetTasks(s, user, today), taskId).value;
      LogsRoute.LogTask(s, user, req.taskId, req.completed, today).outcome.Failure? <==>
        exists l :: l in s.logs && l.taskId == taskId && l.logDate == today && !l.completed
  {
    var t :| t in s.tasks && t.id == taskId && t.isActive && t.userId == Some(user);
    ToggleSentMeansNotCompleted(s, user, today, t);
    assert OwnsTaskId(s.tasks, user, taskId);
    RefusedIffNotDoneLog(s, user, taskId, today);
  }

  /** The client only sends a toggle for a listed task that has no
      completed log today. */
  lemma ToggleSentMeansNotCompleted(s: Store, user: int, today: int, t: Task)
    requires UniqueTaskIds(s.tasks) && UniqueLogKeys(s.logs)
    requires t in s.tasks && t.isActive && t.userId == Some(user)
    requires ToggleRequest(TasksRoute.GetTasks(s, user, today), t.id).Some?
    ensures !HasCompletedLog(s.logs, t.id, today)
  {
    var listed := TasksRoute.GetTasks(s, user, today);
    TasksRoute.GetTasksListsActiveOwned(s, user, today, t);
    var k :| 0 <= k < |listed| && listed[k].id == t.id;
    var owned := Seqs.Filter(s.tasks, ActiveOwnedBy(user));
    var first := Seqs.FirstIndex(listed, HasId(t.id)).value;
    assert listed[first].id == t.id;
    assert !listed[first].isCompletedToday;
    var u := owned[first];
    assert listed[first] == TasksRoute.TaskStatusOf(s, u, today);
    assert u in owned;
    var i :| 0 <= i < |s.tasks| && s.tasks[i] == u;
    var j :| 0 <= j < |s.tasks| && s.tasks[j] == t;
    assert i == j;
    TasksRoute.CompletedTodayIff(s, t, today);
  }

  /** For an owned task without a completed log today, a completion is
      refused exactly when a "not done" log for today is stored. */
  lemma RefusedIffNotDoneLog(s: Store, user: int, taskId: int, today: int)
    requires OwnsTaskId(s.tasks, user, taskId)
    requires !HasCompletedLog(s.logs, taskId, today)
    ensures LogsRoute.LogTask(s, user, taskId, true, today).outcome.Failure? <==>
      exists l :: l in s.logs && l.taskId == taskId && l.logDate == today && !l.completed
  {
  }

  /** The create form: the title as typed and the chosen category. */
  datatype TaskForm = TaskForm(title: string, category: string)

  /** The form's initial state and its state after a successful create:
      empty title, category "Others". */
  const EmptyForm: TaskForm := TaskForm("", Categories.OthersLabel)

  /** `handleCreateTask`: nothing is posted when the title is blank after
      trimming; otherwise the untrimmed title and the category are posted
      (without a description). */
  function CreateRequest(form: TaskForm): (req: Option<TasksRoute.TaskCreate>)
    ensures req.Some? ==> req.value == TasksRoute.TaskCreate(form.title, None, Some(form.category))
  {
    if Text.JsTrim(form.title) == "" then None
    else Some(TasksRoute.TaskCreate(form.title, None, Some(form.category)))
  }

  /** A create is skipped exactly when every character of the title is
      white space (which includes the empty title). */
  lemma CreateSkippedIffBlank(form: TaskForm)
    ensures CreateRequest(form).None? <==> forall i :: 0 <= i < |form.title| ==> Text.IsJsSpace(form.title[i])
  {
    Text.TrimEmptyIff(form.title, Text.IsJsSpace);
  }

  /** The form after a create: reset on success, kept as typed otherwise. */
  function AfterCreate(form: TaskForm, succeeded: bool): (next: TaskForm)
    ensures succeeded ==> next.title == "" && Categories.FromLabel(next.category) == Some(Categories.Others)
    ensures !succeeded ==> next == form
  {
    if succeeded then EmptyForm else form
  }
}

=== FILE: categories.dfy ===
/** The closed set of five task categories and their display labels, as the
    server's `Category` enum and the client's `CATEGORIES` list hold them
    (both in the same order). */
module Categories {
  import opened Wrappers

  datatype Category =
    | PersonalDevelopment
    | Hobbies
    | CareerDevelopment
    | Academics
    | Others

  /** The string value of each enum member. */
  function Label(c: Category): string {
    match c
    case PersonalDevelopment => "Personal Development"
    case Hobbies => "Hobbies"
    case CareerDevelopment => "Career Development"
    case Academics => "Academics"
    case Others => "Others"
  }

  /** The five categories in declaration order (the client's `CATEGORIES`). */
  const AllCategories: seq<Category> :=
    [PersonalDevelopment, Hobbies, CareerDevelopment, Academics, Others]

  /** The label "Others", the default category of a task. */
  const OthersLabel: string := "Others"

  /** The category whose label is exactly `s`, if there is one. */
  function FromLabel(s: string): (r: Option<Category>)
    ensures r.Some? ==> Label(r.value) == s
    ensures r.None? ==> forall c: Category :: Label(c) != s
  {
    if s == "Personal Development" then Some(PersonalDevelopment)
    else if s == "Hobbies" then Some(Hobbies)
    else if s == "Career Development" then Some(CareerDevelopment)
    else if s == "Academics" then Some(Academics)
    else if s == "Others" then Some(Others)
    else None
  }

  /** Labels identify their category: reading a label back gives the
      category, so no two categories share a label. */
  lemma LabelRoundTrip(c: Category)
    ensures FromLabel(Label(c)) == Some(c)
  {
  }

  /** The enumeration is closed and has exactly five distinct members, listed
      once each in `AllCategories`. */
  lemma AllCategoriesComplete()
    ensures |AllCategories| == 5
    ensures forall c: Category :: c in AllCategories
    ensures forall i, j :: 0 <= i < j < |AllCategories| ==> AllCategories[i] != AllCategories[j]
    ensures AllCategories[4] == Others && Label(Others) == OthersLabel
  {
    forall c: Category ensures c in AllCategories {
      assert AllCategories[IndexOf(c)] == c;
    }
  }

  /** Position of a category in `AllCategories`. */
  function IndexOf(c: Category): (k: nat)
    ensures k < |AllCategories| && AllCategories[k] == c
  {
    match c
    case PersonalDevelopment => 0
    case Hobbies => 1
    case CareerDevelopment => 2
    case Academics => 3
    case Others => 4
  }
}

=== FILE: config.dfy ===
/** The database URL setting: its default, and the rewrite of the legacy
    `postgres://` scheme to the `postgresql://` scheme the SQL toolkit
    expects. The environment lookup becomes a parameter. */
module Config {
  import opened Wrappers
  import Text

  const DefaultDatabaseUrl: string := "sqlite:///./execution.db"
  const LegacyScheme: string := "postgres://"
  const Scheme: string := "postgresql://"

  /** A URL in the legacy scheme gets the current scheme in place of its
      first occurrence of the legacy one, which is at the front; any other
      URL is kept as it is. */
  function RewriteScheme(url: string): (r: string)
    ensures Text.StartsWith(url, LegacyScheme) ==> r == Scheme + url[|LegacyScheme|..]
    ensures !Text.StartsWith(url, LegacyScheme) ==> r == url
  {
    if Text.StartsWith(url, LegacyScheme) then
      Text.ReplaceFirstAtFront(url, LegacyScheme, Scheme);
      Text.ReplaceFirst(url, LegacyScheme, Scheme)
    else url
  }

  /** `DATABASE_URL`: the environment value when set (even an empty one),
      the SQLite default otherwise, after the scheme rewrite. */
  function DatabaseUrl(env: Option<string>): (r: string)
    ensures env.None? ==> r == DefaultDatabaseUrl
    ensures env.Some? ==> r == RewriteScheme(env.value)
  {
    match env
    case None =>
      assert !Text.StartsWith(DefaultDatabaseUrl, LegacyScheme) by {
        assert DefaultDatabaseUrl[0] != LegacyScheme[0];
      }
      RewriteScheme(DefaultDatabaseUrl)
    case Some(url) => RewriteScheme(url)
  }

  /** The rewritten URL no longer starts with the legacy scheme, so a
      second rewrite changes nothing. */
  lemma RewriteIdempotent(url: string)
    ensures !Text.StartsWith(RewriteScheme(url), LegacyScheme)
    ensures RewriteScheme(RewriteScheme(url)) == RewriteScheme(url)
  {
    var r := RewriteScheme(url);
    if Text.StartsWith(url, LegacyScheme) {
      assert r[8] == 'q' && LegacyScheme[8] == ':';
    }
  }

  /** The rewrite keeps the rest of the URL: dropping the new scheme gives
      back what followed the old one. */
  lemma RewriteKeepsRemainder(url: string)
    requires Text.StartsWith(url, LegacyScheme)
    ensures Text.StartsWith(RewriteScheme(url), Scheme)
    ensures RewriteScheme(url)[|Scheme|..] == url[|LegacyScheme|..]
  {
    var r := RewriteScheme(url);
    assert r[..|Scheme|] == Scheme;
  }
}

=== FILE: dashboard_route.dfy ===
/** `GET /dashboard/` (`get_dashboard`): the caller's counters, each a count
    of rows joined to the caller's tasks. */
module DashboardRoute {
  import opened Wrappers
  import opened Models
  import Seqs
  import StreakService
  import RewardService
  import opened LogsRoute

  /** The response body. */
  datatype Dashboard = Dashboard(
    total: nat,
    active: nat,
    completedToday: nat,
    activeStreaks: nat,
    longestStreak: int,
    totalRewards: nat)

  /** Logs of the caller's tasks dated `today` that record a completion. */
  function CompletedTodayBy(tasks: seq<Task>, user: int, today: int): DailyLog -> bool {
    (l: DailyLog) => l.logDate == today && l.completed && OwnsTaskId(tasks, user, l.taskId)
  }

  function LogOwnedBy(tasks: seq<Task>, user: int): DailyLog -> bool {
    (l: DailyLog) => OwnsTaskId(tasks, user, l.taskId)
  }

  function StreakOwnedBy(tasks: seq<Task>, user: int): Streak -> bool {
    (st: Streak) => OwnsTaskId(tasks, user, st.taskId)
  }

  function RewardOwnedBy(tasks: seq<Task>, user: int): Reward -> bool {
    (rw: Reward) => OwnsTaskId(tasks, user, rw.taskId)
  }

  /** The `longest_streak` values of a list of streak rows. */
  function Longests(streaks: seq<Streak>): (r: seq<int>)
    ensures |r| == |streaks| && forall k :: 0 <= k < |r| ==> r[k] == streaks[k].longestStreak
  {
    seq(|streaks|, k requires 0 <= k < |streaks| => streaks[k].longestStreak)
  }

  /** `get_dashboard` with `date.today()` given as `today`. */
  function GetDashboard(s: Store, user: int, today: int): (d: Dashboard)
    ensures d.total == |Seqs.Filter(s.tasks, OwnedBy(user))|
    ensures d.active == |Seqs.Filter(s.tasks, ActiveOwnedBy(user))|
    ensures d.active <= d.total
    ensures d.completedToday == |Seqs.Filter(s.logs, CompletedTodayBy(s.tasks, user, today))|
    ensures d.activeStreaks == |Seqs.Filter(s.streaks, StreakOwnedBy(s.tasks, user))|
    ensures d.totalRewards == |Seqs.Filter(s.rewards, RewardOwnedBy(s.tasks, user))|
    // the longest streak is the largest stored value over the caller's rows, 0 without rows
    ensures d.activeStreaks == 0 ==> d.longestStreak == 0
    ensures forall st :: st in s.streaks && OwnsTaskId(s.tasks, user, st.taskId) ==> st.longestStreak <= d.longestStreak
    ensures d.activeStreaks > 0 ==>
      exists st :: st in s.streaks && OwnsTaskId(s.tasks, user, st.taskId) && st.longestStreak == d.longestStreak
  {
    var streaks := Seqs.Filter(s.streaks, StreakOwnedBy(s.tasks, user));
    Seqs.FilterMonotone(s.tasks, ActiveOwnedBy(user), OwnedBy(user));
    var longest := Seqs.MaxOr(Longests(streaks), 0);
    assert forall st :: st in streaks ==> st.longestStreak in Longests(streaks) by {
      forall st | st in streaks ensures st.longestStreak in Longests(streaks) {
        var k :| 0 <= k < |streaks| && streaks[k] == st;
        assert Longests(streaks)[k] == st.longestStreak;
      }
    }
    assert |streaks| > 0 ==> exists st :: st in streaks && st.longestStreak == longest by {
      if |streaks| > 0 {
        var k :| 0 <= k < |streaks| && Longests(streaks)[k] == longest;
        assert streaks[k] in streaks;
      }
    }
    Dashboard(
      |Seqs.Filter(s.tasks, OwnedBy(user))|,
      |Seqs.Filter(s.tasks, ActiveOwnedBy(user))|,
      |Seqs.Filter(s.logs, CompletedTodayBy(s.tasks, user, today))|,
      |streaks|,
      longest,
      |Seqs.Filter(s.rewards, RewardOwnedBy(s.tasks, user))|)
  }

  // ---------------------------------------------------------------------
  // completed_today is bounded by the number of tasks

  /** The task ids named by a list of logs. */
  function LogTaskIds(logs: seq<DailyLog>): (ids: set<int>)
    ensures forall l :: l in logs ==> l.taskId in ids
    ensures forall id :: id in ids ==> exists l :: l in logs && l.taskId == id
    decreases |logs|
  {
    if |logs| == 0 then {}
    else
      var init := logs[..|logs| - 1];
      assert forall l :: l in logs ==> l in init || l == logs[|logs| - 1];
      LogTaskIds(init) + {logs[|logs| - 1].taskId}
  }

  /** The ids of a list of tasks; there are at most as many as tasks. */
  function TaskIds(tasks: seq<Task>): (ids: set<int>)
    ensures forall t :: t in tasks ==> t.id in ids
    ensures |ids| <= |tasks|
    decreases |tasks|
  {
    if |tasks| == 0 then {}
    else TaskIds(tasks[..|tasks| - 1]) + {tasks[|tasks| - 1].id}
  }

  /** A log appended after same-day logs with unique keys names a task none
      of them names. */
  lemma LastLogHasNewTask(logs: seq<DailyLog>, before: seq<DailyLog>, today: int)
    requires |logs| > 0 && UniqueLogKeys(logs)
    requires logs[|logs| - 1].logDate == today
    requires forall l :: l in before ==> l in logs[..|logs| - 1] && l.logDate == today
    ensures logs[|logs| - 1].taskId !in LogTaskIds(before)
  {
    var n := |logs| - 1;
    forall l | l in before ensures l.taskId != logs[n].taskId {
      var j :| 0 <= j < n && logs[..n][j] == l;
      assert logs[j] == l;
    }
  }

  /** A prefix of logs with unique keys has unique keys. */
  lemma PrefixKeepsKeysUnique(logs: seq<DailyLog>, n: nat)
    requires n <= |logs| && UniqueLogKeys(logs)
    ensures UniqueLogKeys(logs[..n])
  {
    var init := logs[..n];
    forall i, j | 0 <= i < j < |init|
      ensures init[i].taskId != init[j].taskId || init[i].logDate != init[j].logDate
    {
      assert init[i] == logs[i] && init[j] == logs[j];
    }
  }

  /** A log naming a new task adds one task id. */
  lemma LogTaskIdsSnoc(logs: seq<DailyLog>, x: DailyLog)
    requires x.taskId !in LogTaskIds(logs)
    ensures |LogTaskIds(logs + [x])| == |LogTaskIds(logs)| + 1
  {
    assert (logs + [x])[..|logs|] == logs;
    var ids := LogTaskIds(logs);
    assert LogTaskIds(logs + [x]) == ids + {x.taskId};
    assert |ids + {x.taskId}| == |ids| + 1;
  }

  /** Logs all dated `today` with unique (task, day) keys have pairwise
      different tasks, so there are as many task ids as logs. */
  lemma {:induction false} SameDayLogsHaveDistinctTasks(logs: seq<DailyLog>, p: DailyLog -> bool, today: int)
    requires UniqueLogKeys(logs)
    requires forall l :: p(l) ==> l.logDate == today
    ensures |LogTaskIds(Seqs.Filter(logs, p))| == |Seqs.Filter(logs, p)|
    decreases |logs|
  {
    if |logs| > 0 {
      var n := |logs| - 1;
      var init, x := logs[..n], logs[n];
      PrefixKeepsKeysUnique(logs, n);
      SameDayLogsHaveDistinctTasks(init, p, today);
      var before := Seqs.Filter(init, p);
      if p(x) {
        assert Seqs.Filter(logs, p) == before + [x];
        LastLogHasNewTask(logs, before, today);
        LogTaskIdsSnoc(before, x);
      } else {
        assert Seqs.Filter(logs, p) == before;
      }
    }
  }

  /** With one log per task and day, the caller cannot have completed more
      tasks today than they have tasks (active or not). */
  lemma CompletedTodayAtMostTotal(s: Store, user: int, today: int)
    requires UniqueLogKeys(s.logs)
    ensures GetDashboard(s, user, today).completedToday <= GetDashboard(s, user, today).total
  {
    var done := Seqs.Filter(s.logs, CompletedTodayBy(s.tasks, user, today));
    var owned := Seqs.Filter(s.tasks, OwnedBy(user));
    SameDayLogsHaveDistinctTasks(s.logs, CompletedTodayBy(s.tasks, user, today), today);
    var doneIds := LogTaskIds(done);
    var ownedIds := TaskIds(owned);
    assert doneIds <= ownedIds by {
      forall id | id in doneIds ensures id in ownedIds {
        var l :| l in done && l.taskId == id;
        var t :| t in s.tasks && t.id == id && t.userId == Some(user);
        assert t in owned;
      }
    }
    Seqs.SubsetSize(doneIds, ownedIds);
  }

  // ---------------------------------------------------------------------
  // Other users' rows never count

  /** The store seen from one user: their tasks and the rows attached to them. */
  function RestrictTo(s: Store, user: int): (r: Store)
    ensures forall t :: t in r.tasks <==> t in s.tasks && t.userId == Some(user)
    ensures forall l :: l in r.logs <==> l in s.logs && OwnsTaskId(s.tasks, user, l.taskId)
  {
    Store(
      Seqs.Filter(s.tasks, OwnedBy(user)),
      Seqs.Filter(s.logs, LogOwnedBy(s.tasks, user)),
      Seqs.Filter(s.streaks, StreakOwnedBy(s.tasks, user)),
      Seqs.Filter(s.rewards, RewardOwnedBy(s.tasks, user)))
  }

  /** Other users' tasks, logs, streaks and rewards never affect the
      caller's dashboard: it is the same when computed from the caller's
      own rows only. */
  lemma DashboardIgnoresOtherUsers(s: Store, user: int, today: int)
    ensures GetDashboard(RestrictTo(s, user), user, today) == GetDashboard(s, user, today)
  {
    var r := RestrictTo(s, user);
    assert forall id :: OwnsTaskId(r.tasks, user, id) <==> OwnsTaskId(s.tasks, user, id) by {
      forall id | OwnsTaskId(s.tasks, user, id) ensures OwnsTaskId(r.tasks, user, id) {
        var t :| t in s.tasks && t.id == id && t.userId == Some(user);
        assert t in r.tasks;
      }
    }
    Seqs.FilterFilter(s.tasks, OwnedBy(user), OwnedBy(user), OwnedBy(user));
    Seqs.FilterFilter(s.tasks, OwnedBy(user), ActiveOwnedBy(user), ActiveOwnedBy(user));
    Seqs.FilterCongruent(r.logs, CompletedTodayBy(r.tasks, user, today), CompletedTodayBy(s.tasks, user, today));
    Seqs.FilterFilter(s.logs, LogOwnedBy(s.tasks, user), CompletedTodayBy(s.tasks, user, today),
                      CompletedTodayBy(s.tasks, user, today));
    Seqs.FilterCongruent(r.streaks, StreakOwnedBy(r.tasks, user), StreakOwnedBy(s.tasks, user));
    Seqs.FilterFilter(s.streaks, StreakOwnedBy(s.tasks, user), StreakOwnedBy(s.tasks, user),
                      StreakOwnedBy(s.tasks, user));
    Seqs.FilterCongruent(r.rewards, RewardOwnedBy(r.tasks, user), RewardOwnedBy(s.tasks, user));
    Seqs.FilterFilter(s.rewards, RewardOwnedBy(s.tasks, user), RewardOwnedBy(s.tasks, user),
                      RewardOwnedBy(s.tasks, user));
  }

  // ---------------------------------------------------------------------
  // How one logging request moves the counters

  /** A streak row of the caller that holds the dashboard's longest streak. */
  lemma LongestRow(s: Store, user: int, today: int) returns (j: nat)
    requires GetDashboard(s, user, today).activeStreaks > 0
    ensures j < |s.streaks| && OwnsTaskId(s.tasks, user, s.streaks[j].taskId)
    ensures s.streaks[j].longestStreak == GetDashboard(s, user, today).longestStreak
  {
    var d := GetDashboard(s, user, today);
    var st :| st in s.streaks && OwnsTaskId(s.tasks, user, st.taskId) && st.longestStreak == d.longestStreak;
    j :| 0 <= j < |s.streaks| && s.streaks[j] == st;
  }

  /** The caller's longest streak does not drop when a completion updates
      one of their streak rows, and it covers the updated row. */
  lemma LongestAfterCompletion(s: Store, s1: Store, user: int, taskId: int, today: int)
    requires forall st :: st in s.streaks ==> st.currentStreak >= 0 && st.longestStreak >= 0
    requires OwnsTaskId(s.tasks, user, taskId)
    requires s1.tasks == s.tasks
    requires s1.streaks == StreakService.UpdateStreak(s.streaks, taskId, today).streaks
    ensures GetDashboard(s1, user, today).longestStreak >= GetDashboard(s, user, today).longestStreak
    ensures GetDashboard(s1, user, today).longestStreak
      >= StreakService.UpdateStreak(s.streaks, taskId, today).streak.longestStreak
  {
    var up := StreakService.UpdateStreak(s.streaks, taskId, today);
    var after := GetDashboard(s1, user, today).longestStreak;
    assert after >= up.streak.longestStreak by {
      var k := FindStreak(s1.streaks, taskId).value;
      assert s1.streaks[k] in s1.streaks;
    }
    if GetDashboard(s, user, today).activeStreaks > 0 {
      var j := LongestRow(s, user, today);
      StreakService.UpdateNeverLowersLongest(s.streaks, taskId, today, j);
      assert s1.streaks[j] in s1.streaks;
    } else {
      StreakService.UpdatedRowCountsToday(s.streaks, taskId, today);
    }
  }

  /** A logged completion adds exactly one to `completed_today`, one to
      `active_streaks` when it created the task's streak row, one to
      `total_rewards` when it earned a reward, never lowers the longest
      streak, and leaves the task counts alone. */
  lemma CompletionMovesCounters(s: Store, user: int, taskId: int, today: int)
    requires Valid(s)
    requires LogTask(s, user, taskId, true, today).outcome.Success?
    ensures var r := LogTask(s, user, taskId, true, today);
      var before := GetDashboard(s, user, today);
      var after := GetDashboard(r.store, user, today);
      && after.total == before.total
      && after.active == before.active
      && after.completedToday == before.completedToday + 1
      && after.activeStreaks == before.activeStreaks + (if FindStreak(s.streaks, taskId).None? then 1 else 0)
      && after.totalRewards == before.totalRewards + (if r.outcome.value.reward.Some? then 1 else 0)
      && after.longestStreak >= before.longestStreak
      && after.longestStreak >= r.outcome.value.streak.longestStreak
  {
    var r := LogTask(s, user, taskId, true, today);
    CompletionCountsLog(s, user, taskId, today);
    CompletionCountsStreakRow(s, user, taskId, today);
    CompletionCountsReward(s, user, taskId, today);
    LongestAfterCompletion(s, r.store, user, taskId, today);
  }

  /** The completion's log is counted in `completed_today`; the task
      counts do not move. */
  lemma CompletionCountsLog(s: Store, user: int, taskId: int, today: int)
    requires LogTask(s, user, taskId, true, today).outcome.Success?
    ensures var r := LogTask(s, user, taskId, true, today);
      && |Seqs.Filter(r.store.logs, CompletedTodayBy(r.store.tasks, user, today))|
         == |Seqs.Filter(s.logs, CompletedTodayBy(s.tasks, user, today))| + 1
      && r.store.tasks == s.tasks
  {
    Seqs.FilterSnoc(s.logs, DailyLog(taskId, today, true), CompletedTodayBy(s.tasks, user, today));
  }

  /** The completion adds a streak row for the caller only when the task
      had none. */
  lemma CompletionCountsStreakRow(s: Store, user: int, taskId: int, today: int)
    requires LogTask(s, user, taskId, true, today).outcome.Success?
    ensures var r := LogTask(s, user, taskId, true, today);
      |Seqs.Filter(r.store.streaks, StreakOwnedBy(r.store.tasks, user))|
      == |Seqs.Filter(s.streaks, StreakOwnedBy(s.tasks, user))| + (if FindStreak(s.streaks, taskId).None? then 1 else 0)
  {
    var up := StreakService.UpdateStreak(s.streaks, taskId, today);
    assert OwnsTaskId(s.tasks, user, taskId);
    match FindStreak(s.streaks, taskId)
    case None =>
      Seqs.FilterSnoc(s.streaks, up.streak, StreakOwnedBy(s.tasks, user));
    case Some(i) =>
      Seqs.FilterUpdateSize(s.streaks, i, up.streak, StreakOwnedBy(s.tasks, user));
  }

  /** The completion adds a reward row for the caller exactly when it
      earned a reward. */
  lemma CompletionCountsReward(s: Store, user: int, taskId: int, today: int)
    requires LogTask(s, user, taskId, true, today).outcome.Success?
    ensures var r := LogTask(s, user, taskId, true, today);
      |Seqs.Filter(r.store.rewards, RewardOwnedBy(r.store.tasks, user))|
      == |Seqs.Filter(s.rewards, RewardOwnedBy(s.tasks, user))| + (if r.outcome.value.reward.Some? then 1 else 0)
  {
    var up := StreakService.UpdateStreak(s.streaks, taskId, today);
    var iss := RewardService.IssueReward(s.rewards, taskId, up.streak.currentStreak);
    assert OwnsTaskId(s.tasks, user, taskId);
    if iss.reward.Some? {
      Seqs.FilterSnoc(s.rewards, iss.reward.value, RewardOwnedBy(s.tasks, user));
    }
  }

  /** A "not done" log changes no counter of the dashboard. */
  lemma NotDoneLogMovesNothing(s: Store, user: int, taskId: int, today: int)
    ensures GetDashboard(LogTask(s, user, taskId, false, today).store, user, today)
      == GetDashboard(s, user, today)
  {
    var r := LogTask(s, user, taskId, false, today);
    if r.outcome.Success? {
      Seqs.FilterSnoc(s.logs, DailyLog(taskId, today, false), CompletedTodayBy(s.tasks, user, today));
    }
  }
}

=== FILE: date_utils.dfy ===
/** Calendar days as integers. A day is its proleptic Gregorian ordinal, the
    number Python's `date.toordinal()` gives (day 1 is Monday 1 January of
    year 1), so one day after `d` is `d + 1`. */
module DateUtils {

  /** `is_consecutive_day(last_date, current_date)`: the current day is the
      day right after the last one. */
  predicate IsConsecutiveDay(lastDate: int, currentDate: int) {
    lastDate + 1 == currentDate
  }

  /** Python's `date.weekday()`: 0 is Monday and 6 is Sunday. */
  function Weekday(day: int): (w: int)
    ensures 0 <= w < 7
  {
    (day + 6) % 7
  }

  /** Day 1, Monday 1 January of year 1, is weekday 0, and each following
      day moves one weekday on, wrapping from Sunday to Monday; the weekday
      repeats every seven days. */
  lemma WeekdaySuccessor(day: int)
    ensures Weekday(1) == 0
    ensures Weekday(day + 7) == Weekday(day)
    ensures Weekday(day + 1) == if Weekday(day) == 6 then 0 else Weekday(day) + 1
  {
  }

  /** The successor test holds exactly when the days are one apart. */
  lemma ConsecutiveExactlyOneApart(lastDate: int, currentDate: int)
    ensures IsConsecutiveDay(lastDate, currentDate) <==> currentDate - lastDate == 1
  {
  }

  /** A day is never consecutive to itself. */
  lemma ConsecutiveIrreflexive(day: int)
    ensures !IsConsecutiveDay(day, day)
  {
  }

  /** The test is asymmetric: the later day never precedes the earlier one. */
  lemma ConsecutiveAsymmetric(a: int, b: int)
    requires IsConsecutiveDay(a, b)
    ensures !IsConsecutiveDay(b, a)
  {
  }

  /** A gap of two or more days is not consecutive, and neither is going
      backwards in time. */
  lemma ConsecutiveRejectsGaps(lastDate: int, currentDate: int)
    requires currentDate - lastDate >= 2 || currentDate <= lastDate
    ensures !IsConsecutiveDay(lastDate, currentDate)
  {
  }
}

=== FILE: logs_route.dfy ===
/** `POST /logs/` (`log_task`): record whether an owned task was done today,
    at most once per task and day, and on a completion advance the task's
    streak and issue a milestone reward. */
module LogsRoute {
  import opened Wrappers
  import opened Models
  import StreakService
  import RewardService

  /** The response body: the new log, and on a completion also the streak
      row and the reward (which may be None). */
  datatype LogReply =
    | LogOnly(log: DailyLog)
    | LogWithStreak(log: DailyLog, streak: Streak, reward: Option<Reward>)

  const NotFoundError: HttpError := HttpError(404, "Task not found or access denied")
  const AlreadyLoggedError: HttpError := HttpError(400, "Task already logged for today")

  /** `log_task(log_in, session, current_user)` with `date.today()` given as
      `today`. */
  function LogTask(s: Store, user: int, taskId: int, completed: bool, today: int): (r: Reply<LogReply>)
    // a task that is missing or owned by someone else is not found, nothing is written
    ensures !OwnsTaskId(s.tasks, user, taskId) ==> r == Reply(s, Failure(NotFoundError))
    // any log for the task today, completed or not, rejects the request, nothing is written
    ensures OwnsTaskId(s.tasks, user, taskId) && HasLog(s.logs, taskId, today) ==>
      r == Reply(s, Failure(AlreadyLoggedError))
    // otherwise exactly one log row is appended and the tasks stay as they were
    ensures r.outcome.Success? <==> OwnsTaskId(s.tasks, user, taskId) && !HasLog(s.logs, taskId, today)
    ensures r.outcome.Success? ==>
      && r.outcome.value.log == DailyLog(taskId, today, completed)
      && r.store.logs == s.logs + [DailyLog(taskId, today, completed)]
      && r.store.tasks == s.tasks
    // a log that is not a completion touches neither streaks nor rewards
    ensures r.outcome.Success? && !completed ==>
      r.outcome.value.LogOnly? && r.store.streaks == s.streaks && r.store.rewards == s.rewards
    // a completion runs the streak update and then the reward rule on the new count
    ensures r.outcome.Success? && completed ==>
      var up := StreakService.UpdateStreak(s.streaks, taskId, today);
      var iss := RewardService.IssueReward(s.rewards, taskId, up.streak.currentStreak);
      && r.outcome.value == LogWithStreak(DailyLog(taskId, today, completed), up.streak, iss.reward)
      && r.store.streaks == up.streaks
      && r.store.rewards == iss.rewards
  {
    match OwnedTask(s.tasks, user, taskId)
    case None =>
      OwnedTaskFound(s.tasks, user, taskId);
      Reply(s, Failure(NotFoundError))
    case Some(_) =>
      OwnedTaskFound(s.tasks, user, taskId);
      if FindLog(s.logs, taskId, today).Some? then
        Reply(s, Failure(AlreadyLoggedError))
      else
        var log := DailyLog(taskId, today, completed);
        var logged := s.(logs := s.logs + [log]);
        if completed then
          var up := StreakService.UpdateStreak(logged.streaks, taskId, today);
          var iss := RewardService.IssueReward(logged.rewards, taskId, up.streak.currentStreak);
          Reply(logged.(streaks := up.streaks, rewards := iss.rewards),
                Success(LogWithStreak(log, up.streak, iss.reward)))
        else
          Reply(logged, Success(LogOnly(log)))
  }
}

/** Properties of `log_task` over sequences of requests. */
module LogsProperties {
  import opened Wrappers
  import opened Models
  import StreakService
  import RewardService
  import opened LogsRoute

  /** Appending a log whose key is new keeps the keys unique. */
  lemma AppendNewLogKeepsKeysUnique(logs: seq<DailyLog>, log: DailyLog)
    requires UniqueLogKeys(logs)
    requires !HasLog(logs, log.taskId, log.logDate)
    ensures UniqueLogKeys(logs + [log])
  {
    var all := logs + [log];
    forall i, j | 0 <= i < j < |all|
      ensures all[i].taskId != all[j].taskId || all[i].logDate != all[j].logDate
    {
      if j == |logs| {
        assert all[i] in logs;
      }
    }
  }

  /** After a completion, every streak row is in bounds, refers to a task
      and is backed by a completed log. */
  lemma StreaksAfterCompletion(s: Store, s1: Store, taskId: int, today: int)
    requires Valid(s)
    requires IsTaskId(s.tasks, taskId)
    requires s1.tasks == s.tasks
    requires s1.logs == s.logs + [DailyLog(taskId, today, true)]
    requires s1.streaks == StreakService.UpdateStreak(s.streaks, taskId, today).streaks
    ensures OneStreakPerTask(s1.streaks)
    ensures forall st :: st in s1.streaks ==>
      IsTaskId(s1.tasks, st.taskId) && StreakBounds(st) && StreakBacked(s1, st)
  {
    var up := StreakService.UpdateStreak(s.streaks, taskId, today);
    StreakService.UpdateKeepsBounds(s.streaks, taskId, today);
    StreakService.UpdateTouchesOnlyItsTask(s.streaks, taskId, today);
    var k := FindStreak(up.streaks, taskId).value;
    assert up.streaks[k] == up.streak;
    assert DailyLog(taskId, today, true) in s1.logs;
    assert StreakBacked(s1, up.streak);
    forall st | st in s1.streaks
      ensures IsTaskId(s1.tasks, st.taskId) && StreakBacked(s1, st)
    {
      var j :| 0 <= j < |up.streaks| && up.streaks[j] == st;
      if st.taskId != taskId {
        assert st == s.streaks[j];
        assert StreakBacked(s, st);
        var l :| l in s.logs && l.taskId == st.taskId && l.logDate == st.lastCompletedDate.value && l.completed;
        assert l in s1.logs;
      } else {
        assert j == k;
      }
    }
  }

  /** Logging keeps every integrity constraint of the store. */
  lemma LogTaskPreservesValid(s: Store, user: int, taskId: int, completed: bool, today: int)
    requires Valid(s)
    ensures Valid(LogTask(s, user, taskId, completed, today).store)
  {
    var r := LogTask(s, user, taskId, completed, today);
    if r.outcome.Success? {
      var log := DailyLog(taskId, today, completed);
      assert IsTaskId(s.tasks, taskId);
      AppendNewLogKeepsKeysUnique(s.logs, log);
      if completed {
        StreaksAfterCompletion(s, r.store, taskId, today);
        assert forall rw :: rw in r.store.rewards ==> rw in s.rewards || rw.taskId == taskId;
      } else {
        forall st | st in r.store.streaks ensures StreakBacked(r.store, st) {
          assert StreakBacked(s, st);
          var l :| l in s.logs && l.taskId == st.taskId && l.logDate == st.lastCompletedDate.value && l.completed;
          assert l in r.store.logs;
        }
      }
    }
  }

  /** Once a log for a task and day exists, every further request for that
      task and day is rejected with 400 and writes nothing, whatever its
      `completed` flag: in particular a "not done" log blocks a later
      completion, and the streak update runs at most once per task and day. */
  lemma SecondLogRejected(s: Store, user: int, taskId: int, first: bool, second: bool, today: int)
    requires LogTask(s, user, taskId, first, today).outcome.Success?
    ensures var s1 := LogTask(s, user, taskId, first, today).store;
      LogTask(s1, user, taskId, second, today) == Reply(s1, Failure(AlreadyLoggedError))
  {
    var s1 := LogTask(s, user, taskId, first, today).store;
    assert DailyLog(taskId, today, first) in s1.logs;
  }

  /** A store that already has a log for the task today (for example a
      "not done" log) turns a completion request away before the streak
      table or the reward table are touched. */
  lemma ExistingLogProtectsStreaks(s: Store, user: int, taskId: int, completed: bool, today: int)
    requires HasLog(s.logs, taskId, today)
    ensures var r := LogTask(s, user, taskId, completed, today);
      r.outcome.Failure? && r.store == s
  {
  }

  /** Logging one task never changes the streak rows or rewards of other
      tasks: streak rows of other tasks keep their positions and values,
      and existing rewards are kept. */
  lemma LogTaskLeavesOtherTasks(s: Store, user: int, taskId: int, completed: bool, today: int)
    ensures var r := LogTask(s, user, taskId, completed, today);
      && (forall j :: 0 <= j < |s.streaks| && s.streaks[j].taskId != taskId ==> r.store.streaks[j] == s.streaks[j])
      && (forall j :: |s.streaks| <= j < |r.store.streaks| ==> r.store.streaks[j].taskId == taskId)
      && s.rewards <= r.store.rewards
      && (forall j :: |s.rewards| <= j < |r.store.rewards| ==> r.store.rewards[j].taskId == taskId)
  {
    StreakService.UpdateTouchesOnlyItsTask(s.streaks, taskId, today);
  }
}

=== FILE: models.dfy ===
/** The four tables the completion engine works on (tasks, daily logs,
    streaks, rewards), held together as one immutable store value, and the
    integrity constraints the database and the routes maintain on them. */
module Models {
  import opened Wrappers
  import Seqs
  import Categories

  /** A row of the `task` table. `category` is free text in the table even
      though the application means it to be a `Category` label.
      `createdOn` is the calendar day of `created_at`. */
  datatype Task = Task(
    id: int,
    title: string,
    description: Option<string>,
    category: Option<string>,
    isActive: bool,
    createdOn: int,
    userId: Option<int>,
    scheduledTime: Option<string>)

  /** A row of the `dailylog` table: whether a task was done on a day. */
  datatype DailyLog = DailyLog(taskId: int, logDate: int, completed: bool)

  /** A row of the `streak` table: the stored streak counters of one task. */
  datatype Streak = Streak(
    taskId: int,
    currentStreak: int,
    longestStreak: int,
    lastCompletedDate: Option<int>)

  /** A row of the `reward` table. */
  datatype Reward = Reward(taskId: int, rewardType: string, value: int)

  /** The whole database as far as the engine reads or writes it. The model
      keeps each table's rows in insertion order and updates them in place;
      SQL promises no order for queries without ORDER BY. */
  datatype Store = Store(
    tasks: seq<Task>,
    logs: seq<DailyLog>,
    streaks: seq<Streak>,
    rewards: seq<Reward>)

  /** An HTTP error response: status code and `detail` message. */
  datatype HttpError = HttpError(status: int, detail: string)

  /** What a route leaves behind: the store after the request and either the
      response body or the error it raised. */
  datatype Reply<T> = Reply(store: Store, outcome: Result<T, HttpError>)

  /** A task row with the column defaults of the `Task` model: no
      description, category "Others", active, no owner, no schedule. */
  function TaskWithDefaults(id: int, title: string, createdOn: int): (t: Task)
    ensures t.id == id && t.title == title && t.createdOn == createdOn
    ensures t.category.Some? && Categories.FromLabel(t.category.value) == Some(Categories.Others)
    ensures t.isActive
    ensures t.scheduledTime == None && t.userId == None && t.description == None
  {
    Task(id, title, None, Some(Categories.OthersLabel), true, createdOn, None, None)
  }

  /** `task.category or "Others"`: a missing or empty category reads as
      "Others", any other stored text is reported as it is. */
  function CategoryOrOthers(category: Option<string>): (r: string)
    ensures r != ""
    ensures category.Some? && category.value != "" ==> r == category.value
    ensures category.None? || category.value == "" ==> r == Categories.OthersLabel
  {
    match category
    case Some(c) => if c != "" then c else Categories.OthersLabel
    case None => Categories.OthersLabel
  }

  // ---------------------------------------------------------------------
  // Row selection, as the routes' queries do it

  function OwnedBy(user: int): Task -> bool {
    (t: Task) => t.userId == Some(user)
  }

  function ActiveOwnedBy(user: int): Task -> bool {
    (t: Task) => t.isActive && t.userId == Some(user)
  }

  function IdOwnedBy(taskId: int, user: int): Task -> bool {
    (t: Task) => t.id == taskId && t.userId == Some(user)
  }

  function StreakOf(taskId: int): Streak -> bool {
    (st: Streak) => st.taskId == taskId
  }

  function LogOf(taskId: int, day: int): DailyLog -> bool {
    (l: DailyLog) => l.taskId == taskId && l.logDate == day
  }

  /** The first task with id `taskId` owned by `user`, if any: the lookup
      the routes make by id and owner before acting on a task. */
  function OwnedTask(tasks: seq<Task>, user: int, taskId: int): Option<nat> {
    Seqs.FirstIndex(tasks, IdOwnedBy(taskId, user))
  }

  /** The first streak row of a task, if any. */
  function FindStreak(streaks: seq<Streak>, taskId: int): Option<nat> {
    Seqs.FirstIndex(streaks, StreakOf(taskId))
  }

  /** The first log of a task on a day, if any. */
  function FindLog(logs: seq<DailyLog>, taskId: int, day: int): Option<nat> {
    Seqs.FirstIndex(logs, LogOf(taskId, day))
  }

  /** Some log for the task and day exists, whatever its `completed` flag. */
  predicate HasLog(logs: seq<DailyLog>, taskId: int, day: int) {
    exists l :: l in logs && l.taskId == taskId && l.logDate == day
  }

  /** A log for the task and day exists that records a completion. */
  predicate HasCompletedLog(logs: seq<DailyLog>, taskId: int, day: int) {
    exists l :: l in logs && l.taskId == taskId && l.logDate == day && l.completed
  }

  /** Some task with this id is owned by `user` (the join of a row on
      `task_id` with `Task.user_id == user`). */
  predicate OwnsTaskId(tasks: seq<Task>, user: int, taskId: int) {
    exists t :: t in tasks && t.id == taskId && t.userId == Some(user)
  }

  predicate IsTaskId(tasks: seq<Task>, taskId: int) {
    exists t :: t in tasks && t.id == taskId
  }

  // ---------------------------------------------------------------------
  // Integrity constraints

  /** `task.id` is the primary key. */
  predicate UniqueTaskIds(tasks: seq<Task>) {
    forall i, j :: 0 <= i < j < |tasks| ==> tasks[i].id != tasks[j].id
  }

  /** `UniqueConstraint("title", "user_id")`. SQL treats NULL owners as
      distinct, so only tasks with an owner can clash. */
  predicate UniqueTitlePerUser(tasks: seq<Task>) {
    forall i, j :: 0 <= i < j < |tasks| && tasks[i].userId.Some? && tasks[i].userId == tasks[j].userId
      ==> tasks[i].title != tasks[j].title
  }

  /** `UniqueConstraint("task_id", "log_date")`: at most one log per task and
      calendar day, whatever its `completed` flag. */
  predicate UniqueLogKeys(logs: seq<DailyLog>) {
    forall i, j :: 0 <= i < j < |logs| ==>
      logs[i].taskId != logs[j].taskId || logs[i].logDate != logs[j].logDate
  }

  /** Every log, streak and reward refers to an existing task. */
  predicate ReferencesTasks(s: Store) {
    && (forall l :: l in s.logs ==> IsTaskId(s.tasks, l.taskId))
    && (forall st :: st in s.streaks ==> IsTaskId(s.tasks, st.taskId))
    && (forall rw :: rw in s.rewards ==> IsTaskId(s.tasks, rw.taskId))
  }

  /** Only `update_streak` creates streak rows, and only when the task has
      none, so a task has at most one. */
  predicate OneStreakPerTask(streaks: seq<Streak>) {
    forall i, j :: 0 <= i < j < |streaks| ==> streaks[i].taskId != streaks[j].taskId
  }

  /** The bounds every streak row written by `update_streak` satisfies. */
  predicate StreakBounds(st: Streak) {
    1 <= st.currentStreak <= st.longestStreak && st.lastCompletedDate.Some?
  }

  /** A streak row's last completed day is backed by a completed log. */
  predicate StreakBacked(s: Store, st: Streak) {
    st.lastCompletedDate.Some? && HasCompletedLog(s.logs, st.taskId, st.lastCompletedDate.value)
  }

  /** The invariant of every store the routes can produce from an empty one. */
  predicate Valid(s: Store) {
    && UniqueTaskIds(s.tasks)
    && UniqueTitlePerUser(s.tasks)
    && UniqueLogKeys(s.logs)
    && ReferencesTasks(s)
    && OneStreakPerTask(s.streaks)
    && (forall st :: st in s.streaks ==> StreakBounds(st) && StreakBacked(s, st))
  }

  const EmptyStore: Store := Store([], [], [], [])

  /** The empty database satisfies every constraint. */
  lemma EmptyStoreValid()
    ensures Valid(EmptyStore)
  {
  }

  /** With unique log keys, the first log of a task and day is the only one:
      any log with that key is it. */
  lemma FindLogUnique(logs: seq<DailyLog>, taskId: int, day: int)
    requires UniqueLogKeys(logs)
    ensures FindLog(logs, taskId, day).Some? <==> HasLog(logs, taskId, day)
    ensures FindLog(logs, taskId, day).Some? ==>
      forall l :: l in logs && l.taskId == taskId && l.logDate == day ==>
        l == logs[FindLog(logs, taskId, day).value]
  {
    var r := FindLog(logs, taskId, day);
    if r.Some? {
      var k := r.value;
      forall l | l in logs && l.taskId == taskId && l.logDate == day
        ensures l == logs[k]
      {
        var j :| 0 <= j < |logs| && logs[j] == l;
        assert LogOf(taskId, day)(logs[j]);
      }
    }
  }

  /** With unique task ids, a task owned by the user is found by its id. */
  lemma OwnedTaskFound(tasks: seq<Task>, user: int, taskId: int)
    ensures OwnedTask(tasks, user, taskId).Some? <==> OwnsTaskId(tasks, user, taskId)
  {
    if OwnsTaskId(tasks, user, taskId) {
      var t :| t in tasks && t.id == taskId && t.userId == Some(user);
      var j :| 0 <= j < |tasks| && tasks[j] == t;
      assert IdOwnedBy(taskId, user)(tasks[j]);
    }
  }
}

=== FILE: predictor.dfy ===
/** The training set of the completion predictor (`get_training_data`) and
    the sample-size guard of `train_predictor_model`. The classifier itself
    is not modelled. */
module Predictor {
  import opened Wrappers
  import opened Models
  import Text
  import DateUtils

  /** One training row: the task's features on a past day and whether the
      task was done that day. */
  datatype Row = Row(
    category: string,
    scheduledMinutes: int,
    dayOfWeek: int,
    titleLength: int,
    isWeekend: int,
    target: int)

  /** How many days back the training set looks. */
  const LookBack: nat := 30

  /** The smallest training set the trainer accepts. */
  const MinSamples: nat := 10

  /** The days `today - 1`, ..., `today - 30` (newest first) on which the
      task already existed, i.e. not before its creation day. */
  function HistoryDays(createdOn: int, today: int, i: nat): (days: seq<int>)
    requires 1 <= i <= LookBack + 1
    ensures forall d :: d in days <==> today - LookBack <= d <= today - i && d >= createdOn
    ensures forall k :: 0 < k < |days| ==> days[k] < days[k - 1]
    ensures |days| > 0 ==> days[0] <= today - i
    decreases LookBack + 1 - i
  {
    if i > LookBack then []
    else
      var rest := HistoryDays(createdOn, today, i + 1);
      if createdOn > today - i then rest else [today - i] + rest
  }

  /** `logs[k]` is for the task and day, and no later log is. */
  predicate LastWithKey(logs: seq<DailyLog>, taskId: int, day: int, k: int) {
    && 0 <= k < |logs| && logs[k].taskId == taskId && logs[k].logDate == day
    && forall j :: k < j < |logs| ==> !(logs[j].taskId == taskId && logs[j].logDate == day)
  }

  /** `log_map.get((task_id, day), False)`: the `completed` flag of the log
      for the task and day. The map is built by a comprehension, so for a
      repeated key the last log wins; without a log the default is False. */
  function LogMapGet(logs: seq<DailyLog>, taskId: int, day: int): (done: bool)
    ensures done ==> HasCompletedLog(logs, taskId, day)
    ensures forall k :: LastWithKey(logs, taskId, day, k) ==> done == logs[k].completed
    ensures (forall k :: 0 <= k < |logs| ==> !(logs[k].taskId == taskId && logs[k].logDate == day)) ==> !done
    decreases |logs|
  {
    if |logs| == 0 then false
    else
      var n := |logs| - 1;
      var last, init := logs[n], logs[..n];
      if last.taskId == taskId && last.logDate == day then
        assert last in logs;
        assert forall k :: LastWithKey(logs, taskId, day, k) ==> k == n;
        last.completed
      else
        assert forall k :: LastWithKey(logs, taskId, day, k) ==> LastWithKey(init, taskId, day, k) by {
          forall k | LastWithKey(logs, taskId, day, k) ensures LastWithKey(init, taskId, day, k) {
            assert k != n;
            assert forall j :: k < j < n ==> init[j] == logs[j];
          }
        }
        assert forall k :: 0 <= k < n ==> init[k] == logs[k];
        assert forall l :: l in init ==> l in logs;
        LogMapGet(init, taskId, day)
  }

  /** With one log per task and day, the lookup is true exactly when a log
      for the day records a completion; a missing or "not done" log gives
      false. */
  lemma {:induction false} LogMapGetIff(logs: seq<DailyLog>, taskId: int, day: int)
    requires UniqueLogKeys(logs)
    ensures LogMapGet(logs, taskId, day) <==> HasCompletedLog(logs, taskId, day)
    decreases |logs|
  {
    if |logs| > 0 {
      var n := |logs| - 1;
      var init, last := logs[..n], logs[n];
      assert logs == init + [last];
      LogMapGetIff(init, taskId, day);
      if last.taskId == taskId && last.logDate == day {
        assert forall l :: l in init ==> l.taskId != taskId || l.logDate != day by {
          forall l | l in init ensures l.taskId != taskId || l.logDate != day {
            var j :| 0 <= j < n && init[j] == l;
            assert logs[j] == l;
          }
        }
      } else {
        assert forall l :: l in logs && l.taskId == taskId && l.logDate == day ==> l in init;
      }
    }
  }

  /** The `scheduled_minutes` feature: the integer value of `scheduled_time`
      when `int()` accepts it, and 0 when it is missing, empty or does not
      parse (such as the "HH:MM" format the column's comment describes). */
  function ScheduledMinutes(scheduledTime: Option<string>): (m: int)
    ensures scheduledTime.None? ==> m == 0
    ensures scheduledTime.Some? && Text.ParseInt(scheduledTime.value).Some? ==>
      m == Text.ParseInt(scheduledTime.value).value
    ensures scheduledTime.Some? && Text.ParseInt(scheduledTime.value).None? ==> m == 0
  {
    match scheduledTime
    case None => 0
    case Some(text) =>
      if text == "" then 0
      else
        match Text.ParseInt(text)
        case Some(n) => n
        case None => 0
  }

  /** A schedule written with a colon, as in "HH:MM" or "HH:MM AM/PM",
      contributes 0 minutes. */
  lemma ClockTimeGivesZero(text: string, k: nat)
    requires k < |text| && text[k] == ':'
    ensures ScheduledMinutes(Some(text)) == 0
  {
    Text.ParseRejectsForeignChar(text, k);
  }

  /** A schedule written as a plain number of minutes is read back as that
      number, unless it has more digits than `int()` converts, when it
      contributes 0. */
  lemma MinutesRoundTrip(n: nat)
    ensures |Text.ShowNat(n)| <= Text.MaxStrDigits ==> ScheduledMinutes(Some(Text.ShowNat(n))) == n
    ensures |Text.ShowNat(n)| > Text.MaxStrDigits ==> ScheduledMinutes(Some(Text.ShowNat(n))) == 0
  {
    Text.ParseShowNat(n);
  }

  /** The features and target of a task on one day. */
  function MakeRow(t: Task, logs: seq<DailyLog>, day: int): (row: Row)
    ensures row.category == CategoryOrOthers(t.category)
    ensures row.titleLength == |t.title|
    ensures row.dayOfWeek == DateUtils.Weekday(day)
    ensures row.isWeekend == 1 <==> DateUtils.Weekday(day) >= 5
    ensures row.isWeekend == 0 || row.isWeekend == 1
    ensures row.target == 1 <==> LogMapGet(logs, t.id, day)
    ensures row.target == 0 || row.target == 1
    ensures row.scheduledMinutes == ScheduledMinutes(t.scheduledTime)
  {
    var weekday := DateUtils.Weekday(day);
    Row(
      CategoryOrOthers(t.category),
      ScheduledMinutes(t.scheduledTime),
      weekday,
      |t.title|,
      if weekday >= 5 then 1 else 0,
      if LogMapGet(logs, t.id, day) then 1 else 0)
  }

  /** The rows of one task: one per day of `HistoryDays`, in that order. */
  function TaskRows(t: Task, logs: seq<DailyLog>, today: int): (rows: seq<Row>)
    ensures var days := HistoryDays(t.createdOn, today, 1);
      |rows| == |days| && forall k :: 0 <= k < |rows| ==> rows[k] == MakeRow(t, logs, days[k])
  {
    var days := HistoryDays(t.createdOn, today, 1);
    seq(|days|, k requires 0 <= k < |days| => MakeRow(t, logs, days[k]))
  }

  /** `get_training_data`: the rows of every task of every user, task by
      task. A row is in the set exactly when it describes some task on
      some day of that task's history window. */
  function TrainingData(s: Store, today: int): (rows: seq<Row>)
    ensures |s.tasks| == 0 ==> rows == []
    ensures forall row :: row in rows <==> exists t, d ::
      t in s.tasks && d in HistoryDays(t.createdOn, today, 1) && row == MakeRow(t, s.logs, d)
    decreases |s.tasks|
  {
    if |s.tasks| == 0 then []
    else
      var first := TaskRows(s.tasks[0], s.logs, today);
      var rest := TrainingData(s.(tasks := s.tasks[1..]), today);
      assert forall t :: t in s.tasks <==> t == s.tasks[0] || t in s.tasks[1..];
      assert forall row :: row in first <==> exists d ::
        d in HistoryDays(s.tasks[0].createdOn, today, 1) && row == MakeRow(s.tasks[0], s.logs, d) by {
        var days := HistoryDays(s.tasks[0].createdOn, today, 1);
        forall row | row in first
          ensures exists d :: d in days && row == MakeRow(s.tasks[0], s.logs, d)
        {
          var k :| 0 <= k < |first| && first[k] == row;
          assert days[k] in days;
        }
        forall d | d in days
          ensures MakeRow(s.tasks[0], s.logs, d) in first
        {
          var k :| 0 <= k < |days| && days[k] == d;
          assert first[k] == MakeRow(s.tasks[0], s.logs, d);
        }
      }
      first + rest
  }

  /** A task has one row per day it existed among the last 30 days before
      today: between 0 and 30 rows, and none for today itself. */
  lemma {:induction false} HistoryDaysCount(createdOn: int, today: int, i: nat)
    requires 1 <= i <= LookBack + 1
    ensures var days := HistoryDays(createdOn, today, i);
      var span := today - i + 1 - (if createdOn > today - LookBack then createdOn else today - LookBack);
      |days| == (if span < 0 then 0 else span)
    ensures forall d :: d in HistoryDays(createdOn, today, i) ==> d < today
    decreases LookBack + 1 - i
  {
    if i <= LookBack {
      HistoryDaysCount(createdOn, today, i + 1);
    }
  }

  /** The number of rows of one task: `min(30, today - createdOn)`, or 0
      for a task created today or later. */
  lemma TaskRowsCount(t: Task, logs: seq<DailyLog>, today: int)
    ensures |TaskRows(t, logs, today)| ==
      if today - t.createdOn <= 0 then 0
      else if today - t.createdOn >= LookBack then LookBack
      else today - t.createdOn
  {
    HistoryDaysCount(t.createdOn, today, 1);
  }

  /** The number of rows a task created on `createdOn` contributes:
      `min(30, today - createdOn)`, and 0 for a task created today or
      later. */
  function RowsOf(createdOn: int, today: int): nat {
    if today - createdOn <= 0 then 0
    else if today - createdOn >= LookBack then LookBack
    else today - createdOn
  }

  /** The number of rows the tasks contribute together. */
  function TotalRows(tasks: seq<Task>, today: int): nat
    decreases |tasks|
  {
    if |tasks| == 0 then 0 else RowsOf(tasks[0].createdOn, today) + TotalRows(tasks[1..], today)
  }

  /** The training set holds exactly the rows of all tasks together: one row
      per task and history day, repeated rows included. */
  lemma {:induction false} TrainingDataCount(s: Store, today: int)
    ensures |TrainingData(s, today)| == TotalRows(s.tasks, today)
    decreases |s.tasks|
  {
    if |s.tasks| > 0 {
      TaskRowsCount(s.tasks[0], s.logs, today);
      TrainingDataCount(s.(tasks := s.tasks[1..]), today);
    }
  }

  /** Every task's own rows are part of the total. */
  lemma {:induction false} TotalRowsCoversEach(tasks: seq<Task>, today: int, i: nat)
    requires i < |tasks|
    ensures TotalRows(tasks, today) >= RowsOf(tasks[i].createdOn, today)
    decreases |tasks|
  {
    if i > 0 {
      TotalRowsCoversEach(tasks[1..], today, i - 1);
    }
  }

  /** A single task created ten or more days ago gives enough rows: the
      trainer accepts the training set. */
  lemma OldTaskTrains(s: Store, today: int, i: nat)
    requires i < |s.tasks| && s.tasks[i].createdOn <= today - MinSamples
    ensures TrainPredictor(TrainingData(s, today)).Trained?
  {
    TrainingDataCount(s, today);
    TotalRowsCoversEach(s.tasks, today, i);
  }

  /** The whole training set has at most 30 rows per task. */
  lemma {:induction false} TrainingDataSize(s: Store, today: int)
    ensures |TrainingData(s, today)| <= LookBack * |s.tasks|
    decreases |s.tasks|
  {
    if |s.tasks| > 0 {
      TaskRowsCount(s.tasks[0], s.logs, today);
      TrainingDataSize(s.(tasks := s.tasks[1..]), today);
    }
  }

  /** The result of `train_predictor_model`, without the fitted model. */
  datatype TrainResult =
    | NotEnoughData(message: string)
    | Trained(samples: nat)

  /** The sample-size guard: fewer than 10 rows (which includes an empty
      set) is an error, 10 or more rows are trained on and reported as the
      sample count. */
  function TrainPredictor(rows: seq<Row>): (r: TrainResult)
    ensures r.NotEnoughData? <==> |rows| < MinSamples
    ensures r.Trained? ==> r.samples == |rows|
  {
    if |rows| == 0 || |rows| < MinSamples then
      NotEnoughData("Not enough data to train (need > 10 records).")
    else Trained(|rows|)
  }

  /** Exactly ten rows are accepted, although the error message asks for
      more than ten. */
  lemma TenRowsAccepted(rows: seq<Row>)
    requires |rows| == 10
    ensures TrainPredictor(rows) == Trained(10)
  {
  }
}

=== FILE: reward_service.dfy ===
/** `issue_reward`: a "streak_bonus" reward for reaching a milestone streak. */
module RewardService {
  import opened Wrappers
  import opened Models

  /** The streak counts that earn a reward. */
  const Milestones: set<int> := {3, 7, 30}

  /** The reward table after the call, and the reward issued, if any. */
  datatype RewardIssue = RewardIssue(rewards: seq<Reward>, reward: Option<Reward>)

  /** `issue_reward(session, task_id, streak_count)`: a reward row is added
      exactly when the count is 3, 7 or 30; otherwise nothing is stored. */
  function IssueReward(rewards: seq<Reward>, taskId: int, streakCount: int): (r: RewardIssue)
    ensures r.reward.Some? <==> streakCount == 3 || streakCount == 7 || streakCount == 30
    ensures r.reward.Some? ==>
      && r.reward.value == Reward(taskId, "streak_bonus", streakCount)
      && r.rewards == rewards + [r.reward.value]
    ensures r.reward.None? ==> r.rewards == rewards
  {
    if streakCount in Milestones then
      var reward := Reward(taskId, "streak_bonus", streakCount);
      RewardIssue(rewards + [reward], Some(reward))
    else RewardIssue(rewards, None)
  }
}

=== FILE: seqs.dfy ===
/** Generic helpers over sequences: order-preserving filtering, the maximum
    with a default, and the cardinality facts the counting proofs need. */
module Seqs {
  import opened Wrappers

  /** The elements of `s` that satisfy `p`, in their original order. */
  function Filter<T(!new)>(s: seq<T>, p: T -> bool): (r: seq<T>)
    ensures |r| <= |s|
    ensures forall x :: x in r <==> x in s && p(x)
    decreases |s|
  {
    if |s| == 0 then []
    else Filter(s[..|s| - 1], p) + (if p(s[|s| - 1]) then [s[|s| - 1]] else [])
  }

  /** Filtering a sequence extended by one element extends the filtered
      sequence by that element exactly when it passes. */
  lemma FilterSnoc<T(!new)>(s: seq<T>, x: T, p: T -> bool)
    ensures Filter(s + [x], p) == Filter(s, p) + (if p(x) then [x] else [])
  {
    assert (s + [x])[..|s + [x]| - 1] == s;
  }

  /** Filtering keeps every element when all elements pass. */
  lemma {:induction false} FilterAll<T(!new)>(s: seq<T>, p: T -> bool)
    requires forall x :: x in s ==> p(x)
    ensures Filter(s, p) == s
    decreases |s|
  {
    if |s| > 0 {
      FilterAll(s[..|s| - 1], p);
      assert s[..|s| - 1] + [s[|s| - 1]] == s;
    }
  }

  /** Filtering keeps nothing when no element passes. */
  lemma {:induction false} FilterNone<T(!new)>(s: seq<T>, p: T -> bool)
    requires forall x :: x in s ==> !p(x)
    ensures Filter(s, p) == []
    decreases |s|
  {
    if |s| > 0 {
      FilterNone(s[..|s| - 1], p);
    }
  }

  /** Filtering with a predicate that implies another never keeps more. */
  lemma {:induction false} FilterMonotone<T(!new)>(s: seq<T>, p: T -> bool, q: T -> bool)
    requires forall x :: p(x) ==> q(x)
    ensures |Filter(s, p)| <= |Filter(s, q)|
    decreases |s|
  {
    if |s| > 0 {
      FilterMonotone(s[..|s| - 1], p, q);
    }
  }

  /** Two predicates that agree on the elements of `s` filter it alike. */
  lemma {:induction false} FilterCongruent<T(!new)>(s: seq<T>, p: T -> bool, q: T -> bool)
    requires forall x :: x in s ==> (p(x) <==> q(x))
    ensures Filter(s, p) == Filter(s, q)
    decreases |s|
  {
    if |s| > 0 {
      assert forall x :: x in s[..|s| - 1] ==> x in s;
      FilterCongruent(s[..|s| - 1], p, q);
    }
  }

  /** Replacing an element by one the predicate judges alike keeps the
      number of elements that pass. */
  lemma {:induction false} FilterUpdateSize<T(!new)>(s: seq<T>, i: nat, x: T, p: T -> bool)
    requires i < |s| && (p(s[i]) <==> p(x))
    ensures |Filter(s[i := x], p)| == |Filter(s, p)|
    decreases |s|
  {
    var n := |s| - 1;
    if i < n {
      FilterUpdateSize(s[..n], i, x, p);
      assert s[i := x][..n] == s[..n][i := x];
    } else {
      assert s[i := x][..n] == s[..n];
    }
  }

  /** Filtering twice is filtering once with the conjunction. */
  lemma {:induction false} FilterFilter<T(!new)>(s: seq<T>, p: T -> bool, q: T -> bool, pq: T -> bool)
    requires forall x :: pq(x) <==> p(x) && q(x)
    ensures Filter(Filter(s, p), q) == Filter(s, pq)
    decreases |s|
  {
    if |s| > 0 {
      var init, last := s[..|s| - 1], s[|s| - 1];
      assert s == init + [last];
      FilterFilter(init, p, q, pq);
      FilterSnoc(init, last, p);
      FilterSnoc(init, last, pq);
      assert pq(last) <==> p(last) && q(last);
      if p(last) {
        assert Filter(s, p) == Filter(init, p) + [last];
        FilterSnoc(Filter(init, p), last, q);
      } else {
        assert Filter(s, p) == Filter(init, p);
      }
    }
  }

  /** Position of the first element of `s` satisfying `p`, if any (the
      `.first()` of a filtered query, or JavaScript's `find`). */
  function FirstIndex<T>(s: seq<T>, p: T -> bool): (r: Option<nat>)
    ensures r.Some? ==> r.value < |s| && p(s[r.value])
    ensures r.Some? ==> forall j :: 0 <= j < r.value ==> !p(s[j])
    ensures r.None? ==> forall j :: 0 <= j < |s| ==> !p(s[j])
    decreases |s|
  {
    if |s| == 0 then None
    else if p(s[0]) then Some(0)
    else
      match FirstIndex(s[1..], p)
      case None => None
      case Some(k) => Some(k + 1)
  }

  /** The largest element of `s`, or `default` when `s` is empty
      (Python's `max(s, default=d)`). */
  function MaxOr(s: seq<int>, default: int): (m: int)
    ensures |s| == 0 ==> m == default
    ensures |s| > 0 ==> m in s
    ensures forall x :: x in s ==> x <= m
    decreases |s|
  {
    if |s| == 0 then default
    else if |s| == 1 then s[0]
    else
      var rest := MaxOr(s[1..], default);
      assert forall x :: x in s ==> x == s[0] || x in s[1..];
      if s[0] >= rest then s[0] else rest
  }

  /** A subset has no more elements than its superset. */
  lemma {:induction false} SubsetSize<T>(a: set<T>, b: set<T>)
    requires a <= b
    ensures |a| <= |b|
    decreases |b|
  {
    if b != {} {
      var y :| y in b;
      SubsetSize(a - {y}, b - {y});
    }
  }
}

=== FILE: streak_runs.dfy ===
/** Runs of daily completions: what the stored streak and the reward rule do
    when a task is completed on consecutive days. */
module StreakRuns {
  import opened Wrappers
  import opened Models
  import StreakService
  import opened LogsRoute

  /** The store after a run of requests and the outcome of each request. */
  datatype Run = Run(store: Store, replies: seq<Result<LogReply, HttpError>>)

  /** Completion requests for `taskId` by `user` on the `n` consecutive days
      `start`, `start + 1`, ..., `start + n - 1`, one per day, in order. */
  function CompletionRun(s: Store, user: int, taskId: int, start: int, n: nat): (r: Run)
    ensures |r.replies| == n
    decreases n
  {
    if n == 0 then Run(s, [])
    else
      var prev := CompletionRun(s, user, taskId, start, n - 1);
      var reply := LogTask(prev.store, user, taskId, true, start + n - 1);
      Run(reply.store, prev.replies + [reply.outcome])
  }

  /** The logs a successful run of `n` days appends. */
  function RunLogs(taskId: int, start: int, n: nat): (logs: seq<DailyLog>)
    ensures |logs| == n
    ensures forall k :: 0 <= k < n ==> logs[k] == DailyLog(taskId, start + k, true)
  {
    seq(n, k => DailyLog(taskId, start + k, true))
  }

  /** The task has no log on any day of the window `[start, start + n)`. */
  predicate WindowFree(logs: seq<DailyLog>, taskId: int, start: int, n: nat) {
    forall l :: l in logs && l.taskId == taskId ==> !(start <= l.logDate < start + n)
  }

  /** The stored streak does not continue into `start`: there is no row yet,
      or its last completion was not the day before. */
  predicate StreakBroken(s: Store, taskId: int, start: int) {
    match FindStreak(s.streaks, taskId)
    case None => true
    case Some(i) => s.streaks[i].lastCompletedDate != Some(start - 1)
  }

  /** The task's stored streak row holds `count`, last completed on `last`. */
  predicate StreakAt(streaks: seq<Streak>, taskId: int, count: int, last: int) {
    && FindStreak(streaks, taskId).Some?
    && streaks[FindStreak(streaks, taskId).value].currentStreak == count
    && streaks[FindStreak(streaks, taskId).value].lastCompletedDate == Some(last)
  }

  /** The reply to the request on day `k` of a run (counting from 0). */
  predicate RunDayReply(reply: Result<LogReply, HttpError>, k: nat) {
    && reply.Success?
    && reply.value.LogWithStreak?
    && reply.value.streak.currentStreak == k + 1
    && (reply.value.reward.Some? <==> k + 1 in {3, 7, 30})
  }

  /** One day of a run, the day `start + m`: a completion on the day after
      the streak's last day extends it, the first day of a run starts it
      at 1. */
  lemma RunStep(s: Store, user: int, taskId: int, start: int, m: nat, day: int)
    requires day == start + m
    requires OwnsTaskId(s.tasks, user, taskId)
    requires !HasLog(s.logs, taskId, day)
    requires m == 0 ==> StreakBroken(s, taskId, start)
    requires m > 0 ==> StreakAt(s.streaks, taskId, m, day - 1)
    ensures var reply := LogTask(s, user, taskId, true, day);
      && RunDayReply(reply.outcome, m)
      && StreakAt(reply.store.streaks, taskId, m + 1, day)
      && reply.store.tasks == s.tasks
      && reply.store.logs == s.logs + [DailyLog(taskId, day, true)]
  {
    var up := StreakService.UpdateStreak(s.streaks, taskId, day);
    if m == 0 {
      match FindStreak(s.streaks, taskId)
      case None =>
      case Some(i) =>
        assert up.streak.currentStreak == 1;
    }
  }

  /** What a run of `n` days has done to the store `s` it started from. */
  predicate RunDone(s: Store, r: Run, taskId: int, start: int, n: nat) {
    && |r.replies| == n
    && r.store.tasks == s.tasks
    && r.store.logs == s.logs + RunLogs(taskId, start, n)
    && (n > 0 ==> StreakAt(r.store.streaks, taskId, n, start + n - 1))
    && (forall k :: 0 <= k < n ==> RunDayReply(r.replies[k], k))
  }

  /** A run of `n - 1` days followed by a successful request on day `n`
      is a run of `n` days. */
  lemma RunDoneSnoc(s: Store, prev: Run, store: Store, outcome: Result<LogReply, HttpError>,
                    taskId: int, start: int, n: nat)
    requires n > 0
    requires RunDone(s, prev, taskId, start, n - 1)
    requires RunDayReply(outcome, n - 1)
    requires StreakAt(store.streaks, taskId, n, start + n - 1)
    requires store.tasks == s.tasks
    requires store.logs == prev.store.logs + [DailyLog(taskId, start + n - 1, true)]
    ensures RunDone(s, Run(store, prev.replies + [outcome]), taskId, start, n)
  {
    assert RunLogs(taskId, start, n - 1) + [DailyLog(taskId, start + n - 1, true)] == RunLogs(taskId, start, n);
    var r := prev.replies + [outcome];
    assert forall k :: 0 <= k < n - 1 ==> r[k] == prev.replies[k];
  }

  /** Extending a run of `n - 1` days by the request of its `n`-th day. */
  lemma RunExtends(s: Store, prev: Run, user: int, taskId: int, start: int, n: nat)
    requires n > 0
    requires OwnsTaskId(s.tasks, user, taskId)
    requires WindowFree(s.logs, taskId, start, n)
    requires StreakBroken(s, taskId, start)
    requires n == 1 ==> prev == Run(s, [])
    requires RunDone(s, prev, taskId, start, n - 1)
    ensures var reply := LogTask(prev.store, user, taskId, true, start + n - 1);
      RunDone(s, Run(reply.store, prev.replies + [reply.outcome]), taskId, start, n)
  {
    var m := n - 1;
    var today := start + n - 1;
    assert !HasLog(prev.store.logs, taskId, today) by {
      forall l | l in prev.store.logs && l.taskId == taskId ensures l.logDate != today {
        if l !in s.logs {
          var k :| 0 <= k < m && RunLogs(taskId, start, m)[k] == l;
        }
      }
    }
    RunStep(prev.store, user, taskId, start, m, today);
    var reply := LogTask(prev.store, user, taskId, true, today);
    RunDoneSnoc(s, prev, reply.store, reply.outcome, taskId, start, n);
  }

  /** A run of `n` daily completions starting from a broken streak: every
      request succeeds, the streak reported on the k-th day (counting from 1)
      is k, and a reward is issued on exactly the 3rd, 7th and 30th day;
      afterwards the stored streak is `n`, last completed on the run's last
      day, and the run's `n` logs have been appended. */
  lemma {:induction false} RunMilestones(s: Store, user: int, taskId: int, start: int, n: nat)
    requires OwnsTaskId(s.tasks, user, taskId)
    requires WindowFree(s.logs, taskId, start, n)
    requires StreakBroken(s, taskId, start)
    ensures RunDone(s, CompletionRun(s, user, taskId, start, n), taskId, start, n)
    decreases n
  {
    if n == 0 {
      assert RunLogs(taskId, start, 0) == [];
    } else {
      assert WindowFree(s.logs, taskId, start, n - 1);
      RunMilestones(s, user, taskId, start, n - 1);
      var prev := CompletionRun(s, user, taskId, start, n - 1);
      RunExtends(s, prev, user, taskId, start, n);
      var reply := LogTask(prev.store, user, taskId, true, start + n - 1);
      assert CompletionRun(s, user, taskId, start, n) == Run(reply.store, prev.replies + [reply.outcome]);
    }
  }

  /** Under the store invariant, a task with no completion yesterday has a
      broken streak today, whatever its stored row says. */
  lemma NoCompletionYesterdayBreaks(s: Store, taskId: int, start: int)
    requires Valid(s)
    requires !HasCompletedLog(s.logs, taskId, start - 1)
    ensures StreakBroken(s, taskId, start)
  {
    match FindStreak(s.streaks, taskId)
    case None =>
    case Some(i) =>
      assert s.streaks[i] in s.streaks;
  }

  /** A missed day resets the streak so that the milestones can be reached
      again: after a run ending on `start + n - 1` and a gap of at least one
      day, a second run earns its rewards on its own 3rd, 7th and 30th day. */
  lemma RunAfterGapRestarts(s: Store, user: int, taskId: int, start: int, n: nat, start2: int, m: nat)
    requires OwnsTaskId(s.tasks, user, taskId)
    requires n > 0 && start2 > start + n
    requires WindowFree(s.logs, taskId, start, n) && WindowFree(s.logs, taskId, start2, m)
    requires StreakBroken(s, taskId, start)
    ensures var mid := CompletionRun(s, user, taskId, start, n).store;
      var r := CompletionRun(mid, user, taskId, start2, m);
      forall k :: 0 <= k < m ==> RunDayReply(r.replies[k], k)
  {
    RunMilestones(s, user, taskId, start, n);
    assert WindowFree(s.logs, taskId, start2, m);
    var mid := CompletionRun(s, user, taskId, start, n).store;
    assert WindowFree(mid.logs, taskId, start2, m) by {
      forall l | l in mid.logs && l.taskId == taskId ensures !(start2 <= l.logDate < start2 + m) {
        if l !in s.logs {
          var k :| 0 <= k < n && RunLogs(taskId, start, n)[k] == l;
        }
      }
    }
    RunMilestones(mid, user, taskId, start2, m);
  }
}

=== FILE: streak_service.dfy ===
/** `update_streak`: the stored per-task streak counters, advanced by one
    completion. Streaks are stored, not recomputed from the logs: the row is
    only touched when a completion is logged. */
module StreakService {
  import opened Wrappers
  import opened Models
  import DateUtils

  /** The streak table after the update, and the row the update produced. */
  datatype StreakUpdate = StreakUpdate(streaks: seq<Streak>, streak: Streak)

  /** The new value of an existing row's counters after a completion on
      `today`. */
  function Advance(st: Streak, today: int): (r: Streak)
    ensures r.taskId == st.taskId && r.lastCompletedDate == Some(today)
    ensures st.lastCompletedDate.Some? && DateUtils.IsConsecutiveDay(st.lastCompletedDate.value, today)
      ==> r.currentStreak == st.currentStreak + 1
    ensures !(st.lastCompletedDate.Some? && DateUtils.IsConsecutiveDay(st.lastCompletedDate.value, today))
      ==> r.currentStreak == 1
    ensures r.longestStreak >= st.longestStreak && r.longestStreak >= r.currentStreak
    ensures r.longestStreak == st.longestStreak || r.longestStreak == r.currentStreak
  {
    var current :=
      if st.lastCompletedDate.Some? && DateUtils.IsConsecutiveDay(st.lastCompletedDate.value, today)
      then st.currentStreak + 1
      else 1;
    var longest := if st.longestStreak >= current then st.longestStreak else current;
    Streak(st.taskId, current, longest, Some(today))
  }

  /** `update_streak(session, task_id, today)`: a task without a streak row
      gets a new row at 1/1; otherwise the row `.first()` returns, the first
      in the model's table order, is advanced in place and every other row
      is left alone. */
  function UpdateStreak(streaks: seq<Streak>, taskId: int, today: int): (r: StreakUpdate)
    ensures r.streak.taskId == taskId && r.streak.lastCompletedDate == Some(today)
    ensures FindStreak(streaks, taskId).None? ==>
      r.streak == Streak(taskId, 1, 1, Some(today)) && r.streaks == streaks + [r.streak]
    ensures FindStreak(streaks, taskId).Some? ==>
      var i := FindStreak(streaks, taskId).value;
      r.streak == Advance(streaks[i], today) && r.streaks == streaks[i := r.streak]
    ensures FindStreak(r.streaks, taskId).Some?
    ensures r.streaks[FindStreak(r.streaks, taskId).value] == r.streak
  {
    match FindStreak(streaks, taskId)
    case None =>
      var st := Streak(taskId, 1, 1, Some(today));
      assert StreakOf(taskId)((streaks + [st])[|streaks|]);
      StreakUpdate(streaks + [st], st)
    case Some(i) =>
      var st := Advance(streaks[i], today);
      assert StreakOf(taskId)(streaks[i := st][i]);
      StreakUpdate(streaks[i := st], st)
  }

  /** With non-negative counters, the updated row always holds a streak of
      at least one day. */
  lemma UpdatedRowCountsToday(streaks: seq<Streak>, taskId: int, today: int)
    requires forall st :: st in streaks ==> st.currentStreak >= 0 && st.longestStreak >= 0
    ensures UpdateStreak(streaks, taskId, today).streak.longestStreak >= 1
  {
    match FindStreak(streaks, taskId)
    case None =>
    case Some(i) =>
      assert streaks[i] in streaks;
  }

  /** No row loses ground: every row keeps its place and its task, and its
      longest streak never decreases. */
  lemma UpdateNeverLowersLongest(streaks: seq<Streak>, taskId: int, today: int, j: nat)
    requires j < |streaks|
    ensures var r := UpdateStreak(streaks, taskId, today).streaks;
      && j < |r| && r[j].taskId == streaks[j].taskId
      && r[j].longestStreak >= streaks[j].longestStreak
  {
  }

  /** A first completion creates the row with both counters at 1. */
  lemma FirstCompletionStartsAtOne(streaks: seq<Streak>, taskId: int, today: int)
    requires forall st :: st in streaks ==> st.taskId != taskId
    ensures UpdateStreak(streaks, taskId, today).streak == Streak(taskId, 1, 1, Some(today))
    ensures |UpdateStreak(streaks, taskId, today).streaks| == |streaks| + 1
  {
  }

  /** A completion the day after the last one extends the streak by one. */
  lemma ConsecutiveDayExtends(streaks: seq<Streak>, taskId: int, i: nat, today: int)
    requires i < |streaks| && streaks[i].taskId == taskId
    requires forall j :: 0 <= j < i ==> streaks[j].taskId != taskId
    requires streaks[i].lastCompletedDate == Some(today - 1)
    ensures UpdateStreak(streaks, taskId, today).streak.currentStreak == streaks[i].currentStreak + 1
  {
    assert FindStreak(streaks, taskId) == Some(i);
  }

  /** Any other completion (same day again, a gap of two or more days, a
      day in the past, or a row without a last date) restarts at 1. */
  lemma OtherDaysReset(streaks: seq<Streak>, taskId: int, i: nat, today: int)
    requires i < |streaks| && streaks[i].taskId == taskId
    requires forall j :: 0 <= j < i ==> streaks[j].taskId != taskId
    requires streaks[i].lastCompletedDate != Some(today - 1)
    ensures UpdateStreak(streaks, taskId, today).streak.currentStreak == 1
  {
    assert FindStreak(streaks, taskId) == Some(i);
  }

  /** The bounds of a well-formed row survive the update: the current streak
      is at least 1, the longest is at least the current and never shrinks. */
  lemma UpdateKeepsBounds(streaks: seq<Streak>, taskId: int, today: int)
    requires forall st :: st in streaks ==> StreakBounds(st)
    ensures StreakBounds(UpdateStreak(streaks, taskId, today).streak)
    ensures forall st :: st in UpdateStreak(streaks, taskId, today).streaks ==> StreakBounds(st)
    ensures FindStreak(streaks, taskId).Some? ==>
      UpdateStreak(streaks, taskId, today).streak.longestStreak
        >= streaks[FindStreak(streaks, taskId).value].longestStreak
  {
    var r := UpdateStreak(streaks, taskId, today);
    match FindStreak(streaks, taskId)
    case None =>
    case Some(i) =>
      assert StreakBounds(streaks[i]);
      forall st | st in r.streaks ensures StreakBounds(st) {
        var j :| 0 <= j < |r.streaks| && r.streaks[j] == st;
        if j != i {
          assert st == streaks[j];
        }
      }
  }

  /** Only the task's own row changes: rows of other tasks keep their
      positions and values, and one row per task stays one row per task. */
  lemma UpdateTouchesOnlyItsTask(streaks: seq<Streak>, taskId: int, today: int)
    ensures var r := UpdateStreak(streaks, taskId, today);
      && |streaks| <= |r.streaks| <= |streaks| + 1
      && (forall j :: 0 <= j < |streaks| && streaks[j].taskId != taskId ==> r.streaks[j] == streaks[j])
      && (forall j :: |streaks| <= j < |r.streaks| ==> r.streaks[j].taskId == taskId)
    ensures OneStreakPerTask(streaks) ==> OneStreakPerTask(UpdateStreak(streaks, taskId, today).streaks)
  {
  }
}

=== FILE: tasks_route.dfy ===
/** `/tasks/` routes: listing the caller's active tasks with their stored
    streak counters and today's status, creating a task, and the partial
    update of a task. */
module TasksRoute {
  import opened Wrappers
  import opened Models
  import Seqs
  import Categories

  /** `TaskReadWithStatus`, one entry of the task list. */
  datatype TaskStatus = TaskStatus(
    id: int,
    title: string,
    description: Option<string>,
    category: string,
    currentStreak: int,
    longestStreak: int,
    isCompletedToday: bool)

  /** The list entry of one task: the stored streak counters (0 without a
      streak row) and whether today's log, if any, records a completion. */
  function TaskStatusOf(s: Store, t: Task, today: int): (v: TaskStatus)
    ensures v.id == t.id && v.title == t.title && v.description == t.description
    ensures v.category == CategoryOrOthers(t.category)
    ensures FindStreak(s.streaks, t.id).None? ==> v.currentStreak == 0 && v.longestStreak == 0
    ensures FindStreak(s.streaks, t.id).Some? ==>
      var st := s.streaks[FindStreak(s.streaks, t.id).value];
      v.currentStreak == st.currentStreak && v.longestStreak == st.longestStreak
    ensures v.isCompletedToday ==> HasCompletedLog(s.logs, t.id, today)
  {
    var (current, longest) :=
      match FindStreak(s.streaks, t.id)
      case None => (0, 0)
      case Some(i) => (s.streaks[i].currentStreak, s.streaks[i].longestStreak);
    var done :=
      match FindLog(s.logs, t.id, today)
      case None => false
      case Some(k) => s.logs[k].completed;
    TaskStatus(t.id, t.title, t.description, CategoryOrOthers(t.category), current, longest, done)
  }

  /** `get_tasks`: one entry per active task of the caller, in the model's
      table order. */
  function GetTasks(s: Store, user: int, today: int): (r: seq<TaskStatus>)
    ensures var listed := Seqs.Filter(s.tasks, ActiveOwnedBy(user));
      |r| == |listed| && forall k :: 0 <= k < |r| ==> r[k] == TaskStatusOf(s, listed[k], today)
  {
    var listed := Seqs.Filter(s.tasks, ActiveOwnedBy(user));
    seq(|listed|, k requires 0 <= k < |listed| => TaskStatusOf(s, listed[k], today))
  }

  /** The list holds exactly the caller's active tasks: a task of the store
      is listed if and only if it is active and owned by the caller. */
  lemma GetTasksListsActiveOwned(s: Store, user: int, today: int, t: Task)
    requires UniqueTaskIds(s.tasks)
    requires t in s.tasks
    ensures (exists k :: 0 <= k < |GetTasks(s, user, today)| && GetTasks(s, user, today)[k].id == t.id)
      <==> t.isActive && t.userId == Some(user)
  {
    var r := GetTasks(s, user, today);
    var listed := Seqs.Filter(s.tasks, ActiveOwnedBy(user));
    if t.isActive && t.userId == Some(user) {
      assert ActiveOwnedBy(user)(t);
      var k :| 0 <= k < |listed| && listed[k] == t;
      assert r[k].id == t.id;
    }
    if k :| 0 <= k < |r| && r[k].id == t.id {
      var u := listed[k];
      assert u in listed;
      var i :| 0 <= i < |s.tasks| && s.tasks[i] == u;
      var j :| 0 <= j < |s.tasks| && s.tasks[j] == t;
      assert i == j;
    }
  }

  /** With one log per task and day, a task is completed today exactly when
      a log for today records a completion; a "not done" log reads as not
      completed. */
  lemma CompletedTodayIff(s: Store, t: Task, today: int)
    requires UniqueLogKeys(s.logs)
    ensures TaskStatusOf(s, t, today).isCompletedToday <==> HasCompletedLog(s.logs, t.id, today)
  {
    FindLogUnique(s.logs, t.id, today);
  }

  /** Streaks are read as stored: the counters listed for a task do not
      depend on the day of the request, so a streak is never decayed by
      missed days. */
  lemma ListedStreakIgnoresToday(s: Store, t: Task, day1: int, day2: int)
    ensures TaskStatusOf(s, t, day1).currentStreak == TaskStatusOf(s, t, day2).currentStreak
    ensures TaskStatusOf(s, t, day1).longestStreak == TaskStatusOf(s, t, day2).longestStreak
  {
  }

  // ---------------------------------------------------------------------
  // Creating a task

  /** `TaskCreate`, the request body of `POST /tasks/`. */
  datatype TaskCreate = TaskCreate(title: string, description: Option<string>, category: Option<string>)

  /** A request that only gives a title: no description, category "Others". */
  function TitleOnly(title: string): (req: TaskCreate)
    ensures req.title == title && req.description == None
    ensures req.category.Some? && Categories.FromLabel(req.category.value) == Some(Categories.Others)
  {
    TaskCreate(title, None, Some(Categories.OthersLabel))
  }

  const DuplicateTitleError: HttpError := HttpError(400, "Task with this title already exists")

  /** The id the table hands out to a new row: one more than the largest id
      in use (1 for an empty table), so it is fresh. */
  function NextTaskId(tasks: seq<Task>): (id: int)
    ensures forall t :: t in tasks ==> t.id < id
    decreases |tasks|
  {
    if |tasks| == 0 then 1
    else
      var rest := NextTaskId(tasks[1..]);
      assert forall t :: t in tasks ==> t == tasks[0] || t in tasks[1..];
      if tasks[0].id + 1 > rest then tasks[0].id + 1 else rest
  }

  /** The caller already has a task with this title. */
  predicate TitleTaken(tasks: seq<Task>, user: int, title: string) {
    exists t :: t in tasks && t.userId == Some(user) && t.title == title
  }

  /** `create_task`: the new task belongs to the caller; a title the caller
      already uses violates the (title, user) constraint, gives 400 and
      stores nothing. `createdOn` is the day of `datetime.utcnow()`. */
  function CreateTask(s: Store, user: int, req: TaskCreate, createdOn: int): (r: Reply<Task>)
    ensures TitleTaken(s.tasks, user, req.title) ==> r == Reply(s, Failure(DuplicateTitleError))
    ensures !TitleTaken(s.tasks, user, req.title) ==>
      && r.outcome.Success?
      && r.store == s.(tasks := s.tasks + [r.outcome.value])
    ensures r.outcome.Success? ==>
      var t := r.outcome.value;
      && t.userId == Some(user) && t.title == req.title
      && t.description == req.description && t.category == req.category
      && t.isActive && t.scheduledTime == None && t.createdOn == createdOn
      && !IsTaskId(s.tasks, t.id)
  {
    if TitleTaken(s.tasks, user, req.title) then Reply(s, Failure(DuplicateTitleError))
    else
      var t := TaskWithDefaults(NextTaskId(s.tasks), req.title, createdOn)
        .(description := req.description, category := req.category, userId := Some(user));
      Reply(s.(tasks := s.tasks + [t]), Success(t))
  }

  /** Creating a task keeps every integrity constraint of the store. */
  lemma CreateTaskPreservesValid(s: Store, user: int, req: TaskCreate, createdOn: int)
    requires Valid(s)
    ensures Valid(CreateTask(s, user, req, createdOn).store)
  {
    var r := CreateTask(s, user, req, createdOn);
    if r.outcome.Success? {
      var t := r.outcome.value;
      var tasks := r.store.tasks;
      assert forall i :: 0 <= i < |s.tasks| ==> tasks[i] == s.tasks[i] && s.tasks[i] in s.tasks;
      assert tasks[|s.tasks|] == t;
      forall x | IsTaskId(s.tasks, x) ensures IsTaskId(tasks, x) {
        var u :| u in s.tasks && u.id == x;
        assert u in tasks;
      }
      assert forall st :: st in r.store.streaks ==> StreakBacked(r.store, st);
    }
  }

  // ---------------------------------------------------------------------
  // Updating a task

  /** `TaskUpdate`, the request body of `PUT /tasks/{task_id}`. */
  datatype TaskUpdate = TaskUpdate(title: Option<string>, category: Option<string>, description: Option<string>)

  /** Python truthiness of an optional string: present and non-empty. */
  predicate Truthy(field: Option<string>) {
    field.Some? && field.value != ""
  }

  /** The task with the truthy fields of the update written over it; every
      other column, and every field given as None or "", keeps its value. */
  function Patch(t: Task, upd: TaskUpdate): (p: Task)
    ensures p.(title := t.title, category := t.category, description := t.description) == t
    ensures p.title == (if Truthy(upd.title) then upd.title.value else t.title)
    ensures p.category == (if Truthy(upd.category) then upd.category else t.category)
    ensures p.description == (if Truthy(upd.description) then upd.description else t.description)
  {
    var t1 := if Truthy(upd.title) then t.(title := upd.title.value) else t;
    var t2 := if Truthy(upd.category) then t1.(category := upd.category) else t1;
    if Truthy(upd.description) then t2.(description := upd.description) else t2
  }

  const TaskNotFoundError: HttpError := HttpError(404, "Task not found")

  /** Some task other than the one at `i` is owned by the same user and has
      this title. */
  predicate TitleClash(tasks: seq<Task>, i: nat, p: Task) {
    exists j :: 0 <= j < |tasks| && j != i && p.userId.Some? && tasks[j].userId == p.userId && tasks[j].title == p.title
  }

  /** `update_task`: 404 unless the caller owns the task; otherwise the
      patched row replaces it, unless its new title clashes with another of
      the caller's tasks, which gives 400 and rolls everything back. */
  function UpdateTask(s: Store, user: int, taskId: int, upd: TaskUpdate): (r: Reply<Task>)
    ensures !OwnsTaskId(s.tasks, user, taskId) ==> r == Reply(s, Failure(TaskNotFoundError))
    ensures r.outcome.Failure? ==> r.store == s
    ensures OwnsTaskId(s.tasks, user, taskId) ==>
      var i := OwnedTask(s.tasks, user, taskId).value;
      var p := Patch(s.tasks[i], upd);
      && (TitleClash(s.tasks, i, p) ==> r == Reply(s, Failure(DuplicateTitleError)))
      && (!TitleClash(s.tasks, i, p) ==> r == Reply(s.(tasks := s.tasks[i := p]), Success(p)))
  {
    OwnedTaskFound(s.tasks, user, taskId);
    match OwnedTask(s.tasks, user, taskId)
    case None => Reply(s, Failure(TaskNotFoundError))
    case Some(i) =>
      var p := Patch(s.tasks[i], upd);
      if TitleClash(s.tasks, i, p) then Reply(s, Failure(DuplicateTitleError))
      else Reply(s.(tasks := s.tasks[i := p]), Success(p))
  }

  /** An update never changes the task's id, owner, active flag, creation
      day or schedule, nor any other task, log, streak or reward. */
  lemma UpdateTouchesOnlyEditableFields(s: Store, user: int, taskId: int, upd: TaskUpdate)
    ensures var r := UpdateTask(s, user, taskId, upd);
      && |r.store.tasks| == |s.tasks|
      && r.store.logs == s.logs && r.store.streaks == s.streaks && r.store.rewards == s.rewards
      && forall k :: 0 <= k < |s.tasks| ==>
           r.store.tasks[k].(title := s.tasks[k].title, category := s.tasks[k].category,
                             description := s.tasks[k].description) == s.tasks[k]
  {
  }

  /** Renaming a task to the title of another of the caller's tasks is
      refused with 400 and changes nothing. */
  lemma RenameToTakenTitleRefused(s: Store, user: int, taskId: int, other: Task, title: string)
    requires UniqueTaskIds(s.tasks)
    requires OwnsTaskId(s.tasks, user, taskId)
    requires other in s.tasks && other.id != taskId && other.userId == Some(user) && other.title == title
    requires title != ""
    ensures UpdateTask(s, user, taskId, TaskUpdate(Some(title), None, None)) == Reply(s, Failure(DuplicateTitleError))
  {
    OwnedTaskFound(s.tasks, user, taskId);
    var i := OwnedTask(s.tasks, user, taskId).value;
    var j :| 0 <= j < |s.tasks| && s.tasks[j] == other;
    assert j != i;
  }

  /** Updating keeps every integrity constraint of the store. */
  lemma UpdateTaskPreservesValid(s: Store, user: int, taskId: int, upd: TaskUpdate)
    requires Valid(s)
    ensures Valid(UpdateTask(s, user, taskId, upd).store)
  {
    var r := UpdateTask(s, user, taskId, upd);
    if r.outcome.Success? {
      OwnedTaskFound(s.tasks, user, taskId);
      var i := OwnedTask(s.tasks, user, taskId).value;
      var tasks := r.store.tasks;
      assert forall k :: 0 <= k < |tasks| ==> tasks[k].id == s.tasks[k].id && tasks[k].userId == s.tasks[k].userId;
      forall x | IsTaskId(s.tasks, x) ensures IsTaskId(tasks, x) {
        var k :| 0 <= k < |s.tasks| && s.tasks[k].id == x;
        assert tasks[k] in tasks;
      }
      assert UniqueTitlePerUser(tasks) by {
        forall a, b | 0 <= a < b < |tasks| && tasks[a].userId.Some? && tasks[a].userId == tasks[b].userId
          ensures tasks[a].title != tasks[b].title
        {
          if a != i && b != i {
            assert tasks[a] == s.tasks[a] && tasks[b] == s.tasks[b];
          }
        }
      }
    }
  }

  /** The category column is free text: an update may store a label outside
      the five categories, and the task list then reports it as it is. */
  lemma UpdateAcceptsAnyCategory(s: Store, user: int, taskId: int, today: int)
    requires UniqueTitlePerUser(s.tasks)
    requires OwnsTaskId(s.tasks, user, taskId)
    ensures var r := UpdateTask(s, user, taskId, TaskUpdate(None, Some("Chores"), None));
      && r.outcome.Success?
      && r.outcome.value.category == Some("Chores")
      && Categories.FromLabel(TaskStatusOf(r.store, r.outcome.value, today).category).None?
  {
    OwnedTaskFound(s.tasks, user, taskId);
    var i := OwnedTask(s.tasks, user, taskId).value;
    var p := Patch(s.tasks[i], TaskUpdate(None, Some("Chores"), None));
    if j :| 0 <= j < |s.tasks| && j != i && p.userId.Some? && s.tasks[j].userId == p.userId && s.tasks[j].title == p.title {
      assert false;
    }
  }
}

=== FILE: text.dfy ===
/** String helpers that behave like the library calls the source relies on:
    Python's `str.startswith`, `str.replace(pat, repl, 1)` and CPython's
    `int(str)` on strings whose digits are ASCII, JavaScript's
    `String.prototype.trim`, and decimal rendering of a non-negative
    integer. */
module Text {
  import opened Wrappers
  import Seqs

  /** `s.startswith(prefix)`. */
  predicate StartsWith(s: string, prefix: string) {
    |prefix| <= |s| && s[..|prefix|] == prefix
  }

  /** True when `pat` occurs in `s` at position `i`. */
  predicate OccursAt(s: string, pat: string, i: nat) {
    i + |pat| <= |s| && s[i..i + |pat|] == pat
  }

  /** Position of the leftmost occurrence of `pat` in `s`, if any. */
  function IndexOf(s: string, pat: string): (r: Option<nat>)
    ensures r.Some? ==> OccursAt(s, pat, r.value)
    ensures r.Some? ==> forall j :: 0 <= j < r.value ==> !OccursAt(s, pat, j)
    ensures r.None? ==> forall j :: 0 <= j <= |s| ==> !OccursAt(s, pat, j)
    decreases |s|
  {
    if StartsWith(s, pat) then Some(0)
    else if |s| == 0 then None
    else
      var rest := IndexOf(s[1..], pat);
      assert forall j :: 1 <= j <= |s| ==> (OccursAt(s, pat, j) <==> OccursAt(s[1..], pat, j - 1)) by {
        forall j | 1 <= j <= |s|
          ensures OccursAt(s, pat, j) <==> OccursAt(s[1..], pat, j - 1)
        {
          OccursInTail(s, pat, j);
        }
      }
      match rest
      case None => None
      case Some(i) => Some(i + 1)
  }

  /** An occurrence at `j >= 1` is an occurrence at `j - 1` of the tail. */
  lemma OccursInTail(s: string, pat: string, j: nat)
    requires 1 <= j <= |s|
    ensures OccursAt(s, pat, j) <==> OccursAt(s[1..], pat, j - 1)
  {
    if j + |pat| <= |s| {
      var a, b := s[j..j + |pat|], s[1..][j - 1..j - 1 + |pat|];
      assert |a| == |b|;
      assert forall k :: 0 <= k < |a| ==> a[k] == s[j + k] == b[k];
      assert a == b;
    }
  }

  /** `s.replace(pat, repl, 1)`: the leftmost occurrence of `pat` is replaced
      by `repl`; a string without `pat` is returned unchanged. */
  function ReplaceFirst(s: string, pat: string, repl: string): (r: string)
    ensures IndexOf(s, pat).None? ==> r == s
    ensures IndexOf(s, pat).Some? ==>
      var i := IndexOf(s, pat).value;
      r == s[..i] + repl + s[i + |pat|..]
  {
    match IndexOf(s, pat)
    case None => s
    case Some(i) => s[..i] + repl + s[i + |pat|..]
  }

  /** In a string that starts with `pat` the replacement is made at the
      very front. */
  lemma ReplaceFirstAtFront(s: string, pat: string, repl: string)
    requires StartsWith(s, pat)
    ensures ReplaceFirst(s, pat, repl) == repl + s[|pat|..]
  {
    assert IndexOf(s, pat) == Some(0);
  }

  // ---------------------------------------------------------------------
  // Trimming

  /** Drops the leading characters satisfying `space`. */
  function TrimStart(s: string, space: char -> bool): (r: string)
    ensures |r| <= |s| && r == s[|s| - |r|..]
    ensures forall i :: 0 <= i < |s| - |r| ==> space(s[i])
    ensures |r| > 0 ==> !space(r[0])
    decreases |s|
  {
    if |s| > 0 && space(s[0]) then
      var r := TrimStart(s[1..], space);
      assert s[1..][|s| - 1 - |r|..] == s[|s| - |r|..];
      assert forall i :: 1 <= i < |s| - |r| ==> s[i] == s[1..][i - 1];
      r
    else s
  }

  /** Drops the trailing characters satisfying `space`. */
  function TrimEnd(s: string, space: char -> bool): (r: string)
    ensures |r| <= |s| && r == s[..|r|]
    ensures forall i :: |r| <= i < |s| ==> space(s[i])
    ensures |r| > 0 ==> !space(r[|r| - 1])
    decreases |s|
  {
    if |s| > 0 && space(s[|s| - 1]) then
      var r := TrimEnd(s[..|s| - 1], space);
      assert s[..|s| - 1][..|r|] == s[..|r|];
      assert forall i :: |r| <= i < |s| - 1 ==> s[i] == s[..|s| - 1][i];
      r
    else s
  }

  /** Drops leading and trailing characters satisfying `space`. */
  function Trim(s: string, space: char -> bool): string {
    TrimEnd(TrimStart(s, space), space)
  }

  /** Trimming leaves nothing exactly when every character is a space. */
  lemma TrimEmptyIff(s: string, space: char -> bool)
    ensures Trim(s, space) == "" <==> forall i :: 0 <= i < |s| ==> space(s[i])
  {
    var a := TrimStart(s, space);
    if Trim(s, space) == "" {
      assert |a| == 0;
    }
  }

  /** JavaScript's white space and line terminators, the characters
      `String.prototype.trim` removes. */
  predicate IsJsSpace(c: char) {
    || c == '\t' || c == '\n' || c == '\U{B}' || c == '\U{C}' || c == '\r'
    || c == ' ' || c == '\U{A0}' || c == '\U{1680}'
    || ('\U{2000}' <= c <= '\U{200A}')
    || c == '\U{2028}' || c == '\U{2029}' || c == '\U{202F}' || c == '\U{205F}'
    || c == '\U{3000}' || c == '\U{FEFF}'
  }

  /** The characters Python's `str.isspace` accepts. */
  predicate IsPySpace(c: char) {
    || ('\t' <= c <= '\r') || ('\U{1C}' <= c <= '\U{1F}') || c == ' '
    || c == '\U{85}' || c == '\U{A0}' || c == '\U{1680}'
    || ('\U{2000}' <= c <= '\U{200A}')
    || c == '\U{2028}' || c == '\U{2029}' || c == '\U{202F}' || c == '\U{205F}'
    || c == '\U{3000}'
  }

  /** The white space CPython's `int()` skips around the number. The string
      is first rewritten so that every character at or above U+007F that
      `str.isspace` accepts becomes a blank, while characters below U+007F
      stay as they are; the parser then skips only the six ASCII blanks
      (tab, line feed, vertical tab, form feed, carriage return, space).
      The separators U+001C..U+001F are `str.isspace` space but are not
      skipped. */
  predicate IsIntSpace(c: char) {
    if c < '\U{7F}' then ('\t' <= c <= '\r') || c == ' ' else IsPySpace(c)
  }

  /** `s.trim()` in JavaScript. */
  function JsTrim(s: string): string {
    Trim(s, IsJsSpace)
  }

  // ---------------------------------------------------------------------
  // Decimal integers

  predicate IsDigit(c: char) {
    '0' <= c <= '9'
  }

  predicate AllDigits(s: string) {
    forall i :: 0 <= i < |s| ==> IsDigit(s[i])
  }

  /** The number written by a string of decimal digits (zero when empty). */
  function DigitsValue(s: string): nat
    requires AllDigits(s)
    decreases |s|
  {
    if |s| == 0 then 0
    else DigitsValue(s[..|s| - 1]) * 10 + (s[|s| - 1] as int - '0' as int)
  }

  /** The digits of Python's integer literal syntax: decimal digits with
      single underscores allowed between two digits. */
  predicate IsDigitGroup(s: string) {
    && |s| > 0 && IsDigit(s[0]) && IsDigit(s[|s| - 1])
    && (forall i :: 0 <= i < |s| ==> IsDigit(s[i]) || s[i] == '_')
    && (forall i :: 0 <= i < |s| - 1 ==> !(s[i] == '_' && s[i + 1] == '_'))
  }

  function NotUnderscore(): char -> bool {
    (c: char) => c != '_'
  }

  /** The number of digits in a digit group, underscores not counted. */
  function DigitCount(body: string): nat {
    |Seqs.Filter(body, NotUnderscore())|
  }

  /** CPython's default limit on the digits `int()` converts from a decimal
      string (`sys.get_int_max_str_digits()`, since Python 3.11 and the 2022
      security releases); a longer number raises ValueError. */
  const MaxStrDigits: nat := 4300

  /** The value of a digit group, underscores ignored; None for any other
      string and for a group of more than `MaxStrDigits` digits. */
  function DigitGroupValue(body: string): (r: Option<nat>)
    ensures r.Some? <==> IsDigitGroup(body) && DigitCount(body) <= MaxStrDigits
  {
    if IsDigitGroup(body) && DigitCount(body) <= MaxStrDigits then
      var digits := Seqs.Filter(body, NotUnderscore());
      assert AllDigits(digits) by {
        forall i | 0 <= i < |digits| ensures IsDigit(digits[i]) {
          assert digits[i] in body;
        }
      }
      Some(DigitsValue(digits))
    else None
  }

  /** An already trimmed integer literal: an optional sign, then a digit
      group. */
  function ParseSigned(t: string): (r: Option<int>)
    ensures r.Some? ==> |t| > 0
  {
    var body := if |t| > 0 && (t[0] == '+' || t[0] == '-') then t[1..] else t;
    match DigitGroupValue(body)
    case None => None
    case Some(n) => Some(if |t| > 0 && t[0] == '-' then -(n as int) else n)
  }

  /** Python's `int(s)` for base 10: surrounding `int()` white space is
      ignored, an optional sign is followed by a digit group of at most
      `MaxStrDigits` digits; anything else fails (the ValueError becomes
      None). */
  function ParseInt(s: string): (r: Option<int>)
    ensures r.Some? ==> |Trim(s, IsIntSpace)| > 0
  {
    ParseSigned(Trim(s, IsIntSpace))
  }

  /** The decimal rendering of `n`, without sign or leading zeros
      (JavaScript's `String(n)` for a non-negative integer). */
  function ShowNat(n: nat): (r: string)
    ensures |r| > 0 && AllDigits(r)
    ensures DigitsValue(r) == n
    ensures |r| > 1 ==> r[0] != '0'
    decreases n
  {
    var d := ['0' + (n % 10) as char];
    if n < 10 then d
    else
      var prefix := ShowNat(n / 10);
      assert (prefix + d)[..|prefix + d| - 1] == prefix;
      prefix + d
  }

  /** A decimal digit is not white space. */
  lemma DigitNotSpace(c: char)
    requires IsDigit(c)
    ensures !IsIntSpace(c) && !IsJsSpace(c)
  {
  }

  /** A string that neither starts nor ends with a space is its own trim. */
  lemma TrimKeeps(s: string, space: char -> bool)
    requires |s| > 0 && !space(s[0]) && !space(s[|s| - 1])
    ensures Trim(s, space) == s
  {
    assert TrimStart(s, space) == s;
  }

  /** The decimal rendering of a number is a digit group worth the number,
      unless it has more digits than `int()` converts. */
  lemma ShowNatValue(n: nat)
    ensures |ShowNat(n)| <= MaxStrDigits ==> DigitGroupValue(ShowNat(n)) == Some(n)
    ensures |ShowNat(n)| > MaxStrDigits ==> DigitGroupValue(ShowNat(n)) == None
  {
    var d := ShowNat(n);
    assert IsDigitGroup(d);
    Seqs.FilterAll(d, NotUnderscore());
  }

  /** Parsing the decimal rendering of a number gives the number back when
      it has at most `MaxStrDigits` digits, and fails otherwise. */
  lemma ParseShowNat(n: nat)
    ensures |ShowNat(n)| <= MaxStrDigits ==> ParseInt(ShowNat(n)) == Some(n)
    ensures |ShowNat(n)| > MaxStrDigits ==> ParseInt(ShowNat(n)) == None
  {
    var d := ShowNat(n);
    DigitNotSpace(d[0]);
    DigitNotSpace(d[|d| - 1]);
    TrimKeeps(d, IsIntSpace);
    ShowNatValue(n);
    UnsignedParse(d);
  }

  /** A string starting with a digit is parsed without a sign. */
  lemma UnsignedParse(d: string)
    requires |d| > 0 && IsDigit(d[0])
    ensures ParseSigned(d) == match DigitGroupValue(d) case None => None case Some(n) => Some(n as int)
  {
  }

  /** Parsing a minus sign before a decimal rendering of at most
      `MaxStrDigits` digits gives the negation. */
  lemma ParseShowNegative(n: nat)
    requires |ShowNat(n)| <= MaxStrDigits
    ensures ParseInt("-" + ShowNat(n)) == Some(-(n as int))
  {
    var d := ShowNat(n);
    var s := "-" + d;
    assert s[|s| - 1] == d[|d| - 1];
    DigitNotSpace(d[|d| - 1]);
    TrimKeeps(s, IsIntSpace);
    ShowNatValue(n);
    NegativeParse(d);
  }

  /** A minus sign before a digit group negates its value. */
  lemma NegativeParse(d: string)
    ensures ParseSigned("-" + d) == match DigitGroupValue(d) case None => None case Some(n) => Some(-(n as int))
  {
    assert ("-" + d)[1..] == d;
  }

  /** A string containing a character that is neither a space, a sign, a
      digit nor an underscore does not parse as an integer. */
  lemma ParseRejectsForeignChar(s: string, k: nat)
    requires k < |s|
    requires !IsIntSpace(s[k]) && !IsDigit(s[k]) && s[k] !in "+-_"
    ensures ParseInt(s) == None
  {
    var j := TrimKeepsNonSpace(s, IsIntSpace, k);
    ForeignCharRejected(Trim(s, IsIntSpace), j);
  }

  /** A leading no-break space (U+00A0) is white space to `int()`: it is
      skipped and the number after it is read. */
  lemma NoBreakSpaceIsIntSpace(n: nat)
    requires |ShowNat(n)| <= MaxStrDigits
    ensures ParseInt("\U{A0}" + ShowNat(n)) == Some(n)
  {
    var d := ShowNat(n);
    var s := "\U{A0}" + d;
    assert s[1..] == d;
    DigitNotSpace(d[0]);
    DigitNotSpace(d[|d| - 1]);
    assert TrimStart(s, IsIntSpace) == TrimStart(d, IsIntSpace) == d;
    TrimKeeps(d, IsIntSpace);
    ParseShowNat(n);
  }

  /** A leading information separator (U+001C), which `str.isspace`
      accepts, is not skipped by `int()`: the string does not parse. */
  lemma SeparatorIsNotIntSpace(digits: string)
    ensures IsPySpace('\U{1C}') && ParseInt("\U{1C}" + digits) == None
  {
    ParseRejectsForeignChar("\U{1C}" + digits, 0);
  }

  /** Trimming keeps every character that is not a space: the position it
      moves to. */
  lemma TrimKeepsNonSpace(s: string, space: char -> bool, k: nat) returns (j: nat)
    requires k < |s| && !space(s[k])
    ensures j < |Trim(s, space)| && Trim(s, space)[j] == s[k]
  {
    var i := TrimStartKeeps(s, space, k);
    TrimEndKeeps(TrimStart(s, space), space, i);
    j := i;
  }

  /** Dropping leading spaces moves a non-space character to the front by
      the number of characters dropped. */
  lemma TrimStartKeeps(s: string, space: char -> bool, k: nat) returns (j: nat)
    requires k < |s| && !space(s[k])
    ensures j < |TrimStart(s, space)| && TrimStart(s, space)[j] == s[k]
  {
    var a := TrimStart(s, space);
    var off := |s| - |a|;
    assert forall i :: 0 <= i < off ==> space(s[i]);
    assert off <= k;
    j := k - off;
    assert a == s[off..];
  }

  /** Dropping trailing spaces keeps a non-space character in place. */
  lemma TrimEndKeeps(a: string, space: char -> bool, j: nat)
    requires j < |a| && !space(a[j])
    ensures j < |TrimEnd(a, space)| && TrimEnd(a, space)[j] == a[j]
  {
    var t := TrimEnd(a, space);
    assert forall i :: |t| <= i < |a| ==> space(a[i]);
    assert j < |t|;
    assert t == a[..|t|];
  }

  /** The same for a trimmed string. */
  lemma ForeignCharRejected(t: string, k: nat)
    requires k < |t|
    requires !IsDigit(t[k]) && t[k] !in "+-_"
    ensures ParseSigned(t) == None
  {
    if t[0] == '+' || t[0] == '-' {
      assert k > 0 && t[1..][k - 1] == t[k];
    }
  }
}

=== FILE: wrappers.dfy ===
/** Optional values and success/failure results, the shapes the model uses in
    place of Python's None and raised HTTP exceptions. */
module Wrappers {

  /** A value that may be absent (Python's `Optional[...]`). */
  datatype Option<+T> = None | Some(value: T)

  /** Either a successful value or an error value. */
  datatype Result<+R, +E> = Success(value: R) | Failure(error: E)
}
